=== FILE: README.md ===
# Order lifecycle of the catalog-and-order service, in Dafny

This project models the core of a small Express/Mongoose service that sells products from
stock: the order handlers (`createOrder`, `getOrders`, `getOrderById`, `updateOrderStatus`,
`deleteOrder`, `getOrdersByUser`), the product handlers that write stock (`createProduct`,
`getProductById`, `updateProduct`, `deleteProduct`, `getProductsByCategory`), and the
schemas of the `Product`, `Order` and `User` collections, including the email pattern of
the user schema.

The document store is a value, `Collections.Store`, with one map from id to record per
collection. Every write handler is a pure function from a store and a request to a
`Reply(result, store)`; a read handler returns its result alone. The result is either the handler's success value or a tagged
`Error`: `MissingFields`, `MalformedId`, `NotFound`, `InvalidLine`,
`InsufficientStock(available, requested)`, `InvalidStatus`, `SchemaViolation` or
`ServerError`. Request bodies are datatypes whose fields are `Option`s, where `None` is an
absent, `undefined` or `null` field. JavaScript falsiness is written out: an empty string,
a zero price and a zero quantity count as missing where the code tests `!x`.

Modules, leaves first:

- `Wrappers`: `Option` and `Result`.
- `Text`: word characters, hex digits, whitespace as `String.prototype.trim` sees it, and `Trim`.
- `Ids`: ids as strings, and `IsObjectId`, the 24-hex-digit form of `ObjectId.isValid`.
- `EmailPattern`: the email regular expression, read literally (concatenation is a split
  point; `*` and `+` are recursion), and proved equal to a description by local character rules.
- `Schema`: the records, the status enum and the schema validators.
- `Collections`: the store, the errors, and `Valid`, the schema constraints every stored
  document meets.
- `Inventory`: the per-line stock debit loop of `createOrder` and the credit loop of
  `deleteOrder`, with `Demand(lines, p)`, the total quantity the lines take from product `p`.
- `OrderController`, `ProductController`, `Users`: the handlers.
- `OrderLifecycle`: properties that relate several steps or calls.
- `Invariants`: every write keeps the store `Valid`, with the product update read as its
  validators intend, so under that reading no sequence of requests makes stock negative.
  The update as written does not keep it (see Findings).

The model follows the code as written:

- `totalAmount` is taken from the client. It is not the sum of price times quantity.
- A malformed id and a missing id are different errors in the order handlers: 400 and 404.
  In the product handlers a malformed id is a caught exception, so it is a 500.
- Nothing checks that a product's category exists.
- Product `quantity` has a second write path besides the order handlers: `updateProduct`.
  It passes the whole request body to the update, so the body may carry `$inc`, which the
  update validators do not check.
- Each line's stock is saved before the next line is read, and nothing is rolled back.
  A failing later line, or a negative total refused when the order is created, leaves the
  earlier debits in place.

## Model

| member | source | states |
|---|---|---|
| Text.Trim | models/User.js:13 | the trimmed string is the input minus an all-whitespace prefix and suffix, and it neither starts nor ends with whitespace; it is empty exactly when the input is all whitespace |
| Text.TrimIdempotent | models/Product.js:7 | trimming a trimmed name or email changes nothing, so stored values are fixed points of the setter |
| Text.PaddedTrim | models/User.js:13 | whitespace added before and after a string that neither starts nor ends with whitespace, any amount on each side, is exactly what trimming removes |
| Text.LeadingSpaces | models/User.js:13 | the count of leading characters the trim removes: all of them whitespace, and the next one not |
| EmailPattern.MatchesIffWellShaped | models/User.js:15 | the pattern accepts a string exactly when it has one `@` at some position, every other character is a word character, `.` or `-`, it starts with a word character, a word character follows the `@`, every `.` or `-` is followed by a word character, and after the `@` a `.` is followed by two or three word characters that end the string |
| EmailPattern.SepWordsIffTail | models/User.js:15 | `([\.-]?\w+)*` matches exactly the strings of word characters and separators in which every separator is followed by a word character |
| EmailPattern.DottedIffChain | models/User.js:15 | `\w+([\.-]?\w+)*` matches exactly those strings that also start with a word character |
| EmailPattern.DomainPartIffShape | models/User.js:15 | the part after the `@` matches exactly when it is such a string and ends in `.` plus two or three word characters |
| EmailPattern.TldGroupsShape | models/User.js:15 | `(\.\w{2,3})+` only matches strings that end in a `.` and two or three word characters |
| EmailPattern.AcceptedEmailShape | models/User.js:15 | an accepted email contains exactly one `@`; every other character is a word character, `.` or `-`; it starts with a word character; the `@` is followed by a word character; so is every `.` and `-`; the text after the last `.` is two or three word characters |
| EmailPattern.AcceptsPlainAddress | models/User.js:15 | `ana.silva@mail.com` is accepted |
| EmailPattern.RefusesDoubledDot | models/User.js:15 | a doubled separator, `ana..silva@mail.com`, is refused |
| EmailPattern.RefusesLongTld | models/User.js:15 | a four-letter top-level domain, `ana@mail.info`, is refused |
| Schema.ParseStatus | controllers/orderController.js:117-118 | a requested status is accepted exactly when it is one of the five enum strings, and it reads back as the status of that name |
| Schema.StatusRoundTrip | models/Order.js:28-32 | every status read from its own name is itself, so the five names are distinct |
| Inventory.ReserveLine | controllers/orderController.js:29-46 | one line fails with `InvalidLine` exactly when its product id is missing or its quantity is missing or at most 0, then `MalformedId`, then `NotFound`, then `InsufficientStock` when the stock is below the quantity; an accepted line lowers its product's stock by exactly its quantity, leaves the stock at least 0 and changes nothing else; a valid product with enough stock is always accepted |
| Inventory.ReserveLines | controllers/orderController.js:27-47 | the line loop changes only product quantities and keeps products valid; when it gets through, the lines are the requested ones in request order and every product's stock went down by exactly the total its lines ask for |
| Inventory.ReservedLinesResolve | controllers/orderController.js:32-39 | every line the loop accepted names a well-formed id of an existing product |
| Inventory.StoppedKeepsPrefix | controllers/orderController.js:28-47 | when line k fails, the stock is exactly what lines 0..k-1 left behind and line k itself saved nothing: earlier debits are not rolled back |
| Inventory.ReserveSucceedsIffStockCovers | controllers/orderController.js:36-45 | for well-formed lines naming existing valid products, the loop gets through exactly when each product's stock covers the sum its lines ask for, so two lines for one product need their sum to fit |
| Inventory.ReleaseLines | controllers/orderController.js:154-160 | the restock loop changes only quantities; when it completes, each existing product got back exactly the total its lines hold, and lines whose product is gone are skipped |
| Inventory.ReleaseCompletes | controllers/orderController.js:154-160 | when the products the lines name are valid and no line quantity is negative, no restocking save fails, whatever the other products hold |
| Inventory.ReservedKeepsTouchedValid | controllers/orderController.js:36-45 | after the debit loop gets through, every product a line names is valid, because its last save passed the validators, and a product that was valid is still valid |
| Inventory.DebitThenCreditRestores | controllers/orderController.js:44-45 | crediting the same lines that were debited gives back the original products |
| OrderController.CreateOrder | controllers/orderController.js:9-60 | a missing user, an empty or missing product list or an undefined total gives `MissingFields` with the store unchanged; then a malformed user id gives `MalformedId` and an unknown user `NotFound`, both before any stock is touched; users never change and only product quantities do; a failure creates no order; a success stores under the fresh id an order with the requested lines in order, the client's total and status `Pendente`, and lowers each product's stock by exactly what its lines ask |
| OrderController.GetOrders | controllers/orderController.js:65-75 | every stored order is listed with its stored contents |
| OrderLifecycle.ReadAfterWrite | controllers/orderController.js:80-91 | an order `createOrder` stored is listed by `getOrders`, read back by `getOrderById` under its id and listed by `getOrdersByUser` for its user; after `deleteOrder` it is listed no more and reads as not found |
| OrderController.GetOrderById | controllers/orderController.js:80-97 | a malformed id is `MalformedId`, a missing order `NotFound`, otherwise the stored order |
| OrderController.UpdateOrderStatus | controllers/orderController.js:102-137 | a missing status gives `MissingFields`, then a malformed id `MalformedId`, then a missing order `NotFound`, then a value outside the enum `InvalidStatus`, each with the store unchanged; on success the order is its old self with only the status replaced by the requested one, and nothing else in the store changes |
| OrderController.DeleteOrder | controllers/orderController.js:142-171 | a malformed id gives `MalformedId` and a missing order `NotFound`, store unchanged; on success exactly that order is removed and every existing product gets back what the order's lines hold; users never change |
| OrderController.GetOrdersByUser | controllers/orderController.js:176-200 | a malformed id gives `MalformedId`; the result succeeds exactly when the user exists or has orders, and then holds exactly that user's orders; it is `NotFound` exactly when the user is unknown and has no orders |
| OrderLifecycle.CreatedOrderIsStored | models/Order.js:4-26 | an order `createOrder` stores has a user reference, at least one line, lines with a product reference and quantity at least 1, and a total at least 0 |
| OrderLifecycle.CreateOrderKeepsEarlierDebits | controllers/orderController.js:28-47 | when line k fails, `createOrder` answers that line's error, creates no order, and leaves every product debited by exactly what lines 0..k-1 asked for |
| OrderLifecycle.NegativeTotalLeaksStock | controllers/orderController.js:44-56 | a negative total passes the presence check, is refused by the schema when the order is created, and by then the first line's product has already lost stock |
| OrderLifecycle.CreateOrderSucceedsIffStockCovers | controllers/orderController.js:36-50 | with a valid store, well-formed references, a non-negative total and a fresh id, `createOrder` succeeds exactly when every product's stock covers the sum of its lines |
| OrderLifecycle.DeleteOrderSucceeds | controllers/orderController.js:144-163 | deleting a stored order from a valid store always succeeds |
| OrderLifecycle.CreateThenDeleteRestores | controllers/orderController.js:144-163 | from any store, invalid products included, creating an order and then deleting it gives back the original store: every product's stock, the orders and the users |
| OrderLifecycle.AnyStatusFollowsAny | controllers/orderController.js:117-123 | any of the five statuses can replace any other, a cancelled order's included, and only the status changes |
| OrderLifecycle.DeleteOrderSkipsDeletedProduct | controllers/productController.js:91-97 | deleting a product leaves the orders that reference it; deleting such an order later still succeeds, the product stays absent and the other products are restocked |
| OrderLifecycle.DeletedUsersOrdersStillListed | controllers/orderController.js:182-195 | after a user is removed, its orders remain and listing them by that user still returns them |
| OrderLifecycle.InsufficientStockExample | controllers/orderController.js:40-42 | a product with one unit asked for two refuses the line with available 1 and requested 2 |
| ProductController.CreateProduct | controllers/productController.js:6-27 | `MissingFields` exactly when some field is falsy, a zero price or zero stock included, with the store unchanged; a complete body whose product, name trimmed, passes the schema succeeds exactly when the id is fresh; any other failure is a server error with the store unchanged; a success stores under the fresh id a valid product with the trimmed name and the given fields; orders and users never change |
| ProductController.GetProductById | controllers/productController.js:46-59 | a missing product is `NotFound`, a malformed id a server error, otherwise the stored product |
| ProductController.UpdateProduct | controllers/productController.js:64-84 | a malformed id is a server error and a missing product `NotFound`, nothing written; assigned fields that fail the validators, or a field both assigned and incremented, give a server error with the store unchanged; otherwise it succeeds, and the product becomes exactly its old self with the assigned fields overwritten (name trimmed) and the increments added, with nothing else changed; a body without increments keeps a stored product stored |
| ProductController.IncBypassesMinimum | controllers/productController.js:74-77 | as written, `$inc` on a stored product's stock by more than it holds is accepted and stores a negative quantity, so the store is no longer valid; the corrected update refuses the same body with the store unchanged |
| ProductController.UpdateProductChecked | models/Product.js:18-22 | the update as the schema's minimums intend: the same errors, and also a server error when an increment leaves the stock or the price below 0; it succeeds exactly when the id is well formed, the product exists, the assignments pass the validators, nothing is both assigned and incremented and the increments stay at least 0; a stored product stays a stored product |
| ProductController.CheckedAgreesUnlessNegative | controllers/productController.js:74-77 | the update as written and the corrected one give the same reply for every body without `$inc`, and differ exactly when the update as written stores an incremented field below 0 |
| ProductController.ProductReadAfterWrite | controllers/productController.js:46-122 | a product `createProduct` stored is read back by `getProductById` and listed by `getProductsByCategory` for its category; after `updateProduct`, as written or corrected, it reads back with its new fields; after `deleteProduct` it reads as not found |
| ProductController.DeleteProduct | controllers/productController.js:89-104 | succeeds exactly for an existing product, removes only it, and leaves orders and users unchanged |
| ProductController.GetProductsByCategory | controllers/productController.js:109-122 | a malformed category id, and only that, is a server error; it succeeds exactly when some product has the category, holding exactly the products of the category; `NotFound` exactly when the id is well formed and no product has that category |
| Users.InsertUser | models/User.js:3-23 | a created user has the trimmed name and email, is valid, had an unused email and a fresh id, and is the only change; emails stay unique; a trimmed non-empty name, a matching trimmed email not in use and a fresh id always succeed |
| Users.InsertUserKeepsUsersStored | models/User.js:9-18 | after `User.create`, every stored user is still trimmed and valid, and no two share an email |
| Users.InsertKeepsUnique | models/User.js:12 | adding a user whose email is not in use keeps emails unique |
| Users.PaddedEmailAccepted | models/User.js:13-15 | an email the pattern accepts is still accepted with whitespace around it, and is stored without the whitespace |
| Users.DeleteUser | controllers/userController.js:53-65 | succeeds exactly for an existing user and removes only that user; orders and products are unchanged |
| Invariants.QuantityChangeKeepsStored | models/Product.js:18-22 | changing only quantities, each saved through the validators, keeps every product stored and valid |
| Invariants.CreateOrderPreservesValid | controllers/orderController.js:9-60 | `createOrder` keeps the store valid, on every path |
| Invariants.UpdateOrderStatusPreservesValid | controllers/orderController.js:102-137 | `updateOrderStatus` keeps the store valid |
| Invariants.DeleteOrderPreservesValid | controllers/orderController.js:142-171 | `deleteOrder` keeps the store valid |
| Invariants.CreateProductPreservesValid | controllers/productController.js:6-27 | `createProduct` keeps the store valid |
| Invariants.UpdateProductPreservesValid | models/Product.js:13-22 | the corrected `updateProduct` keeps the store valid: it cannot store a negative price or quantity |
| Invariants.DeleteProductPreservesValid | controllers/productController.js:89-104 | `deleteProduct` keeps the store valid |
| Invariants.InsertUserPreservesValid | models/User.js:3-23 | `User.create` keeps the store valid, emails unique |
| Invariants.DeleteUserPreservesValid | controllers/userController.js:53-65 | `deleteUser` keeps the store valid |
| Invariants.StepPreservesValid | models/Product.js:13-22 | any one write request keeps the store valid, with the product update read as corrected |
| Invariants.StockNeverNegative | models/Product.js:18-22 | from a valid store, after any sequence of write requests with the product update read as corrected, the store is valid and every product's quantity and price are at least 0 |

## Left out

- I/O, the HTTP layer and the response shapes: status codes and message texts collapse into the `Error` tags; `populate` projections are not modelled.
- Concurrency: requests run one at a time, so the read-then-write race on a product's stock between two concurrent `createOrder` calls is not modelled.
- `createdAt` and `orderDate` timestamps (`Date.now`) are not modelled.
- Fresh ids: `CreateOrder`, `CreateProduct` and `InsertUser` take the new document's id as a parameter. A collision is answered as the duplicate-key server error.
- `ObjectId.isValid` is modelled only in its 24-hex-digit form. The 12-character form and the case-insensitive matching of hex ids are left out; ids are compared as strings.
- JavaScript numbers: prices and totals are `real` and quantities are `int`. NaN, infinities, fractional quantities and values of the wrong JSON type are left out.
- An explicit `null` in an update body is not modelled; an update field is either absent or a value.
- Unexpected store failures (a lost connection, a document deleted between the read and the update of `updateProduct`) are not modelled; only failures the code's own checks and the schema validators produce are.
- `getProducts`, `getUsers` and `getCategories`, plain reads of a whole collection, are not modelled. Neither are `getUserById` and `getCategoryById`, reads by id with a not-found and a server-error path of the same shape as `getProductById`.
- Categories are not a collection of the model, and the category write handlers are not modelled. No modelled check depends on a category: a product's category is only checked to be a well-formed id, and the `populate('category', 'name')` of the product handlers only puts the category's name into the reply.
- `createUser`'s own presence check is not modelled; `Users.InsertUser` models `User.create`, the schema it runs and the unique email index.
- Update operators other than `$inc` on the stock and the price (`$set` written out, `$unset`, `$mul`, `$min`, `$max`, `$rename`, `$inc` on other fields) are not modelled; an update body is a set of assignments plus those two increments.
- Invariants.UpdateProductPreservesValid: stated for `UpdateProductChecked`; the update as written does not keep the store valid, as `IncBypassesMinimum` shows.
- Invariants.StepPreservesValid: the product update step is `UpdateProductChecked`, for the same reason.
- Invariants.StockNeverNegative: holds for runs whose product updates are `UpdateProductChecked`; with the update as written, one `$inc` makes the stock negative.
- Mongoose collects every validator failure into one error; the model answers one `SchemaViolation` or `ServerError` without the list of messages.

## Findings

| source | as written | input that shows it | evidently intended | confidence | as-written member | corrected member |
|---|---|---|---|---|---|---|
| controllers/productController.js:74-77 | the whole request body is the update; with `runValidators` Mongoose runs the update validators on assignments only, so an `$inc` is applied unchecked | a stored product with quantity 3 and the body `{"$inc": {"quantity": -5}}`: the reply is 200 and the stored quantity is -2 | the minimum 0 on `quantity` and `price` (models/Product.js:16, 21) holds for every stored product, as `runValidators: true` asks | medium, not executed | ProductController.IncBypassesMinimum | ProductController.UpdateProductChecked |

=== FILE: collections.dfy ===
/** The document store the controllers read and write: one map per collection, keyed by id,
    and the error a request handler answers with. */
module Collections {
  import opened Wrappers
  import opened Text
  import opened Ids
  import opened Schema

  /** How a handler ends when it does not succeed. The comment gives the HTTP class. */
  datatype Error =
    | MissingFields                                 // 400: a required request field is absent or falsy
    | MalformedId                                   // 400: an id is not an ObjectId
    | NotFound                                      // 404: a well-formed id names no document
    | InvalidLine                                   // 400: an order line without product or positive quantity
    | InsufficientStock(available: int, requested: int)  // 400: a line asks for more than the stock
    | InvalidStatus                                 // 400: a status outside the enum
    | SchemaViolation                               // a schema validator refused the document: 400 from createOrder, 500 from createUser
    | ServerError                                   // 500: any other failure the handler catches

  datatype Store = Store(users: map<Id, User>, products: map<Id, Product>, orders: map<Id, Order>)

  /** What a write operation answers, together with the store it leaves behind. */
  datatype Reply<+T> = Reply(result: Result<T, Error>, store: Store)

  /** A request string field is truthy in JavaScript: present and not empty. */
  predicate Present(o: Option<string>) {
    o.Some? && o.value != ""
  }

  /** A product as stored: it passed the validators and its name went through the trim setter. */
  predicate StoredProduct(p: Product) {
    ProductSchemaValid(p) && Trim(p.name) == p.name
  }

  /** An order as stored: it passed the validators and it has at least one line. */
  predicate StoredOrder(o: Order) {
    OrderSchemaValid(o) && |o.lines| >= 1
  }

  /** A user as stored: both fields trimmed, then validated. */
  predicate StoredUser(u: User) {
    UserSchemaValid(u) && Trim(u.name) == u.name && Trim(u.email) == u.email
  }

  /** The unique index on the user email. */
  predicate UniqueEmails(users: map<Id, User>) {
    forall a, b :: a in users && b in users && a != b ==> users[a].email != users[b].email
  }

  /** The schema constraints every document in the store satisfies. */
  predicate Valid(st: Store) {
    && (forall id :: id in st.products ==> StoredProduct(st.products[id]))
    && (forall id :: id in st.orders ==> StoredOrder(st.orders[id]))
    && (forall id :: id in st.users ==> StoredUser(st.users[id]))
    && UniqueEmails(st.users)
  }
}

=== FILE: email_pattern.dfy ===
/** The email pattern of the user schema, `^\w+([\.-]?\w+)*@\w+([\.-]?\w+)*(\.\w{2,3})+$`.

    The first half of the module reads the pattern as a regular expression: concatenation
    is "some split point", `*` and `+` are recursion over a shorter suffix. The second half
    describes the same strings by local rules on characters, and the lemmas prove the two
    descriptions accept exactly the same strings. */
module EmailPattern {
  import opened Text

  predicate IsSep(c: char) {
    c == '.' || c == '-'
  }

  // ---------------------------------------------------------------- the pattern, piece by piece

  /** `\w+` */
  predicate WordRun(s: string) {
    |s| >= 1 && forall i :: 0 <= i < |s| ==> IsWordChar(s[i])
  }

  /** `[\.-]?\w+` */
  predicate SepWord(s: string) {
    WordRun(s) || (|s| >= 2 && IsSep(s[0]) && WordRun(s[1..]))
  }

  /** `([\.-]?\w+)*` */
  predicate SepWords(s: string)
    decreases |s|
  {
    s == [] || exists k | 1 <= k <= |s| :: SepWord(s[..k]) && SepWords(s[k..])
  }

  /** `\w+([\.-]?\w+)*`, the local part and the start of the domain. */
  predicate Dotted(s: string) {
    exists k | 1 <= k <= |s| :: WordRun(s[..k]) && SepWords(s[k..])
  }

  /** `\.\w{2,3}` */
  predicate TldGroup(s: string) {
    (|s| == 3 || |s| == 4) && s[0] == '.' && WordRun(s[1..])
  }

  /** `(\.\w{2,3})+` */
  predicate TldGroups(s: string)
    decreases |s|
  {
    exists k | 1 <= k <= |s| :: TldGroup(s[..k]) && (k == |s| || TldGroups(s[k..]))
  }

  /** `\w+([\.-]?\w+)*(\.\w{2,3})+`, everything after the `@`. */
  predicate DomainPart(s: string) {
    exists k | 0 <= k <= |s| :: Dotted(s[..k]) && TldGroups(s[k..])
  }

  /** The whole anchored pattern. */
  predicate MatchesEmail(s: string) {
    exists a | 0 <= a < |s| :: s[a] == '@' && Dotted(s[..a]) && DomainPart(s[a + 1..])
  }

  // ---------------------------------------------------------------- the same strings, by local rules

  /** Every character is a word character, `.` or `-`, and every `.` or `-` is followed by a
      word character. */
  predicate Tail(s: string) {
    && (forall i :: 0 <= i < |s| ==> IsWordChar(s[i]) || IsSep(s[i]))
    && (forall i :: 0 <= i < |s| && IsSep(s[i]) ==> i + 1 < |s| && IsWordChar(s[i + 1]))
  }

  /** A non-empty `Tail` that starts with a word character. */
  predicate Chain(s: string) {
    |s| >= 1 && IsWordChar(s[0]) && Tail(s)
  }

  /** `s` ends in a `.` followed by exactly two or three word characters. */
  predicate EndsWithTld(s: string) {
    exists j | 0 <= j < |s| :: s[j] == '.' && 2 <= |s| - j - 1 <= 3 && WordRun(s[j + 1..])
  }

  /** The accepted emails described on the whole string, with `a` the position of the `@`. */
  predicate ShapedAround(s: string, a: int) {
    && 0 <= a < |s| && s[a] == '@'
    && (forall i :: 0 <= i < |s| && i != a ==> IsWordChar(s[i]) || IsSep(s[i]))
    && IsWordChar(s[0])
    && a + 1 < |s| && IsWordChar(s[a + 1])
    && (forall i :: 0 <= i < |s| && IsSep(s[i]) ==> i + 1 < |s| && IsWordChar(s[i + 1]))
    && exists j | a < j < |s| :: s[j] == '.' && 2 <= |s| - j - 1 <= 3 && WordRun(s[j + 1..])
  }

  predicate WellShapedEmail(s: string) {
    exists a | 0 <= a < |s| :: ShapedAround(s, a)
  }

  // ---------------------------------------------------------------- equivalence proofs

  lemma TailConcat(x: string, y: string)
    requires Tail(x) && Tail(y)
    ensures Tail(x + y)
  {
    var s := x + y;
    forall i | 0 <= i < |s| && IsSep(s[i])
      ensures i + 1 < |s| && IsWordChar(s[i + 1])
    {
      if i < |x| {
        assert s[i] == x[i];
        assert s[i + 1] == x[i + 1];
      } else {
        assert s[i] == y[i - |x|];
        assert s[i + 1] == y[i + 1 - |x|];
      }
    }
  }

  lemma WordRunIsTail(s: string)
    requires WordRun(s)
    ensures Tail(s)
  {
  }

  lemma SepWordIsTail(s: string)
    requires SepWord(s)
    ensures Tail(s)
  {
    if !WordRun(s) {
      assert forall i :: 1 <= i < |s| ==> s[i] == s[1..][i - 1];
    }
  }

  lemma {:induction false} SepWordsIffTail(s: string)
    ensures SepWords(s) <==> Tail(s)
    decreases |s|
  {
    if s == [] {
      return;
    }
    if SepWords(s) {
      var k :| 1 <= k <= |s| && SepWord(s[..k]) && SepWords(s[k..]);
      SepWordsIffTail(s[k..]);
      SepWordIsTail(s[..k]);
      TailConcat(s[..k], s[k..]);
      SplitJoin(s, k);
    }
    if Tail(s) {
      var k := if IsWordChar(s[0]) then 1 else 2;
      assert SepWord(s[..k]) by {
        if k == 2 {
          assert s[..k][1..] == [s[1]];
        }
      }
      assert Tail(s[k..]) by {
        forall i | 0 <= i < |s[k..]| && IsSep(s[k..][i])
          ensures i + 1 < |s[k..]| && IsWordChar(s[k..][i + 1])
        {
          assert s[k..][i] == s[k + i];
        }
      }
      SepWordsIffTail(s[k..]);
    }
  }

  lemma DottedIffChain(s: string)
    ensures Dotted(s) <==> Chain(s)
  {
    if Dotted(s) {
      var k :| 1 <= k <= |s| && WordRun(s[..k]) && SepWords(s[k..]);
      SepWordsIffTail(s[k..]);
      TailConcat(s[..k], s[k..]);
      SplitJoin(s, k);
      assert s[0] == s[..k][0];
    }
    if Chain(s) {
      assert WordRun(s[..1]);
      assert Tail(s[1..]) by {
        forall i | 0 <= i < |s[1..]| && IsSep(s[1..][i])
          ensures i + 1 < |s[1..]| && IsWordChar(s[1..][i + 1])
        {
          assert s[1..][i] == s[1 + i];
        }
      }
      SepWordsIffTail(s[1..]);
    }
  }

  lemma TldGroupShape(g: string)
    requires TldGroup(g)
    ensures Tail(g) && EndsWithTld(g)
  {
    assert forall i :: 1 <= i < |g| ==> g[i] == g[1..][i - 1];
    assert g[0 + 1..] == g[1..];
  }

  /** A top-level domain at the end of `t` is still at the end after text is put in front. */
  lemma EndsWithTldAfter(x: string, t: string)
    requires EndsWithTld(t)
    ensures EndsWithTld(x + t)
  {
    var j :| 0 <= j < |t| && t[j] == '.' && 2 <= |t| - j - 1 <= 3 && WordRun(t[j + 1..]);
    var s := x + t;
    assert s[|x| + j] == '.';
    assert s[|x| + j + 1..] == t[j + 1..];
  }

  /** What the repeated top-level-domain groups guarantee. */
  lemma {:induction false} TldGroupsShape(t: string)
    requires TldGroups(t)
    ensures Tail(t) && EndsWithTld(t)
    decreases |t|
  {
    var k :| 1 <= k <= |t| && TldGroup(t[..k]) && (k == |t| || TldGroups(t[k..]));
    var g := t[..k];
    TldGroupShape(g);
    if k == |t| {
      assert g == t;
    } else {
      var rest := t[k..];
      TldGroupsShape(rest);
      TailConcat(g, rest);
      EndsWithTldAfter(g, rest);
      SplitJoin(t, k);
    }
  }

  /** Prefixes of a `Chain` cut just before a `.` are again a `Chain`. */
  lemma ChainBeforeDot(s: string, j: int)
    requires Chain(s) && 0 <= j < |s| && s[j] == '.'
    ensures Chain(s[..j])
  {
    assert j != 0;
    var x := s[..j];
    forall i | 0 <= i < |x| && IsSep(x[i])
      ensures i + 1 < |x| && IsWordChar(x[i + 1])
    {
      assert x[i] == s[i];
    }
  }

  lemma SplitJoin(s: string, k: nat)
    requires k <= |s|
    ensures s[..k] + s[k..] == s
  {
  }

  lemma DomainPartIsShaped(s: string)
    requires DomainPart(s)
    ensures Chain(s) && EndsWithTld(s)
  {
    var k :| 0 <= k <= |s| && Dotted(s[..k]) && TldGroups(s[k..]);
    var x, t := s[..k], s[k..];
    DottedIffChain(x);
    TldGroupsShape(t);
    SplitJoin(s, k);
    TailConcat(x, t);
    EndsWithTldAfter(x, t);
    assert s[0] == x[0];
  }

  lemma ShapedIsDomainPart(s: string)
    requires Chain(s) && EndsWithTld(s)
    ensures DomainPart(s)
  {
    var j :| 0 <= j < |s| && s[j] == '.' && 2 <= |s| - j - 1 <= 3 && WordRun(s[j + 1..]);
    ChainBeforeDot(s, j);
    DottedIffChain(s[..j]);
    var t := s[j..];
    assert t[1..] == s[j + 1..];
    assert TldGroup(t[..|t|]) by {
      assert t[..|t|] == t;
    }
    assert TldGroups(t);
  }

  lemma DomainPartIffShape(s: string)
    ensures DomainPart(s) <==> Chain(s) && EndsWithTld(s)
  {
    if DomainPart(s) {
      DomainPartIsShaped(s);
    }
    if Chain(s) && EndsWithTld(s) {
      ShapedIsDomainPart(s);
    }
  }

  /** A well-shaped string starts and ends with a word character. */
  lemma ShapedEnds(s: string, a: int)
    requires ShapedAround(s, a)
    ensures IsWordChar(s[0]) && IsWordChar(s[|s| - 1])
  {
    var j :| a < j < |s| && s[j] == '.' && 2 <= |s| - j - 1 <= 3 && WordRun(s[j + 1..]);
    var tld := s[j + 1..];
    assert s[|s| - 1] == tld[|tld| - 1];
  }

  /** The split of a well-shaped string at its `@` gives a `Chain` and a domain. */
  lemma ShapedSplit(s: string, a: int)
    requires ShapedAround(s, a)
    ensures Chain(s[..a]) && Chain(s[a + 1..]) && EndsWithTld(s[a + 1..])
  {
    assert a != 0;
    var l, d := s[..a], s[a + 1..];
    forall i | 0 <= i < |l|
      ensures IsWordChar(l[i]) || IsSep(l[i])
    {
      assert l[i] == s[i];
    }
    forall i | 0 <= i < |l| && IsSep(l[i])
      ensures i + 1 < |l| && IsWordChar(l[i + 1])
    {
      assert l[i] == s[i];
    }
    forall i | 0 <= i < |d|
      ensures IsWordChar(d[i]) || IsSep(d[i])
    {
      assert d[i] == s[a + 1 + i];
    }
    forall i | 0 <= i < |d| && IsSep(d[i])
      ensures i + 1 < |d| && IsWordChar(d[i + 1])
    {
      assert d[i] == s[a + 1 + i];
    }
    var j :| a < j < |s| && s[j] == '.' && 2 <= |s| - j - 1 <= 3 && WordRun(s[j + 1..]);
    assert d[j - a - 1] == '.';
    assert d[j - a..] == s[j + 1..];
  }

  /** The converse: a `Chain`, an `@` and a domain make a well-shaped string. */
  lemma JoinShaped(s: string, a: int)
    requires 0 <= a < |s| && s[a] == '@'
    requires Chain(s[..a]) && Chain(s[a + 1..]) && EndsWithTld(s[a + 1..])
    ensures ShapedAround(s, a)
  {
    var l, d := s[..a], s[a + 1..];
    assert s == l + [s[a]] + d;
    forall i | 0 <= i < |s| && i != a
      ensures IsWordChar(s[i]) || IsSep(s[i])
    {
      if i < a { assert s[i] == l[i]; } else { assert s[i] == d[i - a - 1]; }
    }
    assert s[0] == l[0];
    assert s[a + 1] == d[0];
    forall i | 0 <= i < |s| && IsSep(s[i])
      ensures i + 1 < |s| && IsWordChar(s[i + 1])
    {
      if i < a {
        assert s[i] == l[i];
        assert s[i + 1] == l[i + 1];
      } else {
        assert i != a;
        assert s[i] == d[i - a - 1];
        assert s[i + 1] == d[i - a];
      }
    }
    var jd :| 0 <= jd < |d| && d[jd] == '.' && 2 <= |d| - jd - 1 <= 3 && WordRun(d[jd + 1..]);
    var j := a + 1 + jd;
    assert s[j] == '.';
    assert s[j + 1..] == d[jd + 1..];
  }

  /** The pattern accepts exactly the well-shaped strings. */
  lemma MatchesIffWellShaped(s: string)
    ensures MatchesEmail(s) <==> WellShapedEmail(s)
  {
    if MatchesEmail(s) {
      var a :| 0 <= a < |s| && s[a] == '@' && Dotted(s[..a]) && DomainPart(s[a + 1..]);
      DottedIffChain(s[..a]);
      DomainPartIffShape(s[a + 1..]);
      JoinShaped(s, a);
    }
    if WellShapedEmail(s) {
      var a :| 0 <= a < |s| && ShapedAround(s, a);
      ShapedSplit(s, a);
      DottedIffChain(s[..a]);
      DomainPartIffShape(s[a + 1..]);
    }
  }

  lemma NoAtOutside(s: string, a: int)
    requires ShapedAround(s, a)
    ensures multiset(s)['@'] == 1
    ensures forall i :: 0 <= i < |s| && s[i] == '@' ==> i == a
  {
    var l, d := s[..a], s[a + 1..];
    assert s == l + [s[a]] + d;
    assert '@' !in l by {
      forall i | 0 <= i < |l| ensures l[i] != '@' { assert l[i] == s[i]; }
    }
    assert '@' !in d by {
      forall i | 0 <= i < |d| ensures d[i] != '@' { assert d[i] == s[a + 1 + i]; }
    }
  }

  /** What every accepted email looks like. */
  lemma AcceptedEmailShape(s: string)
    requires MatchesEmail(s)
    ensures multiset(s)['@'] == 1
    ensures forall i :: 0 <= i < |s| && s[i] != '@' ==> IsWordChar(s[i]) || IsSep(s[i])
    ensures IsWordChar(s[0])
    ensures forall a :: 0 <= a < |s| && s[a] == '@' ==> a + 1 < |s| && IsWordChar(s[a + 1])
    ensures forall i :: 0 <= i < |s| && IsSep(s[i]) ==> i + 1 < |s| && IsWordChar(s[i + 1])
    ensures forall a :: 0 <= a < |s| && s[a] == '@' ==>
      exists j | a < j < |s| :: s[j] == '.' && 2 <= |s| - j - 1 <= 3 && WordRun(s[j + 1..])
  {
    MatchesIffWellShaped(s);
    var a :| 0 <= a < |s| && ShapedAround(s, a);
    NoAtOutside(s, a);
  }

  lemma AcceptsPlainAddress()
    ensures MatchesEmail("ana.silva@mail.com")
  {
    var s := "ana.silva@mail.com";
    assert |s| == 18 && s[9] == '@';
    forall i | 0 <= i < |s| && i != 9
      ensures IsWordChar(s[i]) || IsSep(s[i])
    {
    }
    forall i | 0 <= i < |s| && IsSep(s[i])
      ensures i + 1 < |s| && IsWordChar(s[i + 1])
    {
      assert i == 3 || i == 14;
    }
    assert s[14] == '.' && s[15..] == "com" && WordRun(s[15..]);
    assert ShapedAround(s, 9);
    MatchesIffWellShaped(s);
  }

  /** Two separators in a row are refused. */
  lemma RefusesDoubledDot()
    ensures !MatchesEmail("ana..silva@mail.com")
  {
    var s := "ana..silva@mail.com";
    assert s[3] == '.' && s[4] == '.';
    MatchesIffWellShaped(s);
  }

  /** A four-letter top-level domain is refused. */
  lemma RefusesLongTld()
    ensures !MatchesEmail("ana@mail.info")
  {
    var s := "ana@mail.info";
    if WellShapedEmail(s) {
      assert false;
    }
    MatchesIffWellShaped(s);
  }
}

=== FILE: ids.dfy ===
/** Document identifiers. */
module Ids {
  import opened Text

  /** An id as it appears in a request path, a request body or a stored reference. */
  type Id = string

  /** `mongoose.Types.ObjectId.isValid` for strings, restricted to its 24-hex-digit form. */
  predicate IsObjectId(s: string) {
    |s| == 24 && forall i :: 0 <= i < |s| ==> IsHexDigit(s[i])
  }
}

=== FILE: invariants.dfy ===
/** Every write operation keeps the schema constraints of the store, with the product update
    read as its validators intend (`UpdateProductChecked`). Under that reading no sequence of
    requests drives a product's stock below zero; the update as written does not give this
    guarantee, because an `$inc` in its body skips the validators (`IncBypassesMinimum`). */
module Invariants {
  import opened Wrappers
  import opened Ids
  import opened Schema
  import opened Collections
  import opened Inventory
  import opened OrderController
  import opened ProductController
  import opened Users
  import opened OrderLifecycle

  /** The requests that write to the store. */
  datatype Op =
    | CreateOrderOp(req: OrderRequest, orderId: Id)
    | UpdateOrderStatusOp(id: Id, status: Option<string>)
    | DeleteOrderOp(id: Id)
    | CreateProductOp(fields: ProductFields, productId: Id)
    | UpdateProductOp(id: Id, body: UpdateBody)
    | DeleteProductOp(id: Id)
    | InsertUserOp(userId: Id, name: Option<string>, email: Option<string>)
    | DeleteUserOp(id: Id)

  /** The store after one request, whatever it answered. */
  function Step(st: Store, op: Op): Store {
    match op
    case CreateOrderOp(req, orderId) => CreateOrder(st, req, orderId).store
    case UpdateOrderStatusOp(id, status) => UpdateOrderStatus(st, id, status).store
    case DeleteOrderOp(id) => DeleteOrder(st, id).store
    case CreateProductOp(fields, productId) => CreateProduct(st, fields, productId).store
    case UpdateProductOp(id, body) => UpdateProductChecked(st, id, body).store
    case DeleteProductOp(id) => DeleteProduct(st, id).store
    case InsertUserOp(userId, name, email) => InsertUser(st, userId, name, email).store
    case DeleteUserOp(id) => DeleteUser(st, id).store
  }

  /** The store after a sequence of requests, one at a time. */
  function Run(st: Store, ops: seq<Op>): Store
    decreases |ops|
  {
    if ops == [] then st else Run(Step(st, ops[0]), ops[1..])
  }

  lemma QuantityChangeKeepsStored(before: map<Id, Product>, after: map<Id, Product>)
    requires forall id :: id in before ==> StoredProduct(before[id])
    requires OnlyQuantitiesChange(before, after)
    requires StockValid(after)
    ensures forall id :: id in after ==> StoredProduct(after[id])
  {
    forall id | id in after
      ensures StoredProduct(after[id])
    {
      assert after[id].name == before[id].name;
    }
  }

  lemma AssembleValid(st: Store)
    requires forall id :: id in st.products ==> StoredProduct(st.products[id])
    requires forall id :: id in st.orders ==> StoredOrder(st.orders[id])
    requires forall id :: id in st.users ==> StoredUser(st.users[id])
    requires UniqueEmails(st.users)
    ensures Valid(st)
  {
  }

  lemma CreateOrderKeepsOrdersStored(st: Store, req: OrderRequest, orderId: Id)
    requires forall id :: id in st.orders ==> StoredOrder(st.orders[id])
    ensures forall id :: id in CreateOrder(st, req, orderId).store.orders ==>
      StoredOrder(CreateOrder(st, req, orderId).store.orders[id])
  {
    var r := CreateOrder(st, req, orderId);
    if r.result.Ok? {
      CreatedOrderIsStored(st, req, orderId);
    }
  }

  lemma CreateOrderPreservesValid(st: Store, req: OrderRequest, orderId: Id)
    requires Valid(st)
    ensures Valid(CreateOrder(st, req, orderId).store)
  {
    ValidStock(st);
    var after := CreateOrder(st, req, orderId).store;
    QuantityChangeKeepsStored(st.products, after.products);
    CreateOrderKeepsOrdersStored(st, req, orderId);
    AssembleValid(after);
  }

  lemma UpdateOrderStatusPreservesValid(st: Store, id: Id, status: Option<string>)
    requires Valid(st)
    ensures Valid(UpdateOrderStatus(st, id, status).store)
  {
  }

  lemma DeleteOrderPreservesValid(st: Store, id: Id)
    requires Valid(st)
    ensures Valid(DeleteOrder(st, id).store)
  {
    ValidStock(st);
    var r := DeleteOrder(st, id);
    QuantityChangeKeepsStored(st.products, r.store.products);
  }

  lemma CreateProductPreservesValid(st: Store, fields: ProductFields, productId: Id)
    requires Valid(st)
    ensures Valid(CreateProduct(st, fields, productId).store)
  {
    var r := CreateProduct(st, fields, productId);
    if r.result.Ok? {
      ReplaceKeepsStored(st.products, r.store.products, productId, r.result.value);
      AssembleValid(r.store);
    }
  }

  lemma UpdateProductPreservesValid(st: Store, id: Id, body: UpdateBody)
    requires Valid(st)
    ensures Valid(UpdateProductChecked(st, id, body).store)
  {
    var r := UpdateProductChecked(st, id, body);
    if r.result.Ok? {
      ReplaceKeepsStored(st.products, r.store.products, id, r.result.value);
      AssembleValid(r.store);
    }
  }

  /** Storing a stored product under an id, new or not, keeps every product stored. */
  lemma ReplaceKeepsStored(products: map<Id, Product>, after: map<Id, Product>, id: Id, p: Product)
    requires forall k :: k in products ==> StoredProduct(products[k])
    requires StoredProduct(p) && after == products[id := p]
    ensures forall k :: k in after ==> StoredProduct(after[k])
  {
  }

  lemma DeleteProductPreservesValid(st: Store, id: Id)
    requires Valid(st)
    ensures Valid(DeleteProduct(st, id).store)
  {
  }

  lemma InsertUserPreservesValid(st: Store, userId: Id, name: Option<string>, email: Option<string>)
    requires Valid(st)
    ensures Valid(InsertUser(st, userId, name, email).store)
  {
    InsertUserKeepsUsersStored(st, userId, name, email);
    AssembleValid(InsertUser(st, userId, name, email).store);
  }

  lemma DeleteUserPreservesValid(st: Store, id: Id)
    requires Valid(st)
    ensures Valid(DeleteUser(st, id).store)
  {
    var after := DeleteUser(st, id).store;
    RemoveKeepsUsersStored(st.users, id);
    AssembleValid(after);
  }

  lemma RemoveKeepsUsersStored(users: map<Id, User>, id: Id)
    requires forall a :: a in users ==> StoredUser(users[a])
    requires UniqueEmails(users)
    ensures forall a :: a in users - {id} ==> StoredUser((users - {id})[a])
    ensures UniqueEmails(users - {id})
  {
  }

  /** One request of any kind keeps the store valid. */
  lemma StepPreservesValid(st: Store, op: Op)
    requires Valid(st)
    ensures Valid(Step(st, op))
  {
    match op
    case CreateOrderOp(req, orderId) =>
      assert Step(st, op) == CreateOrder(st, req, orderId).store;
      CreateOrderPreservesValid(st, req, orderId);
    case UpdateOrderStatusOp(id, status) =>
      assert Step(st, op) == UpdateOrderStatus(st, id, status).store;
      UpdateOrderStatusPreservesValid(st, id, status);
    case DeleteOrderOp(id) =>
      assert Step(st, op) == DeleteOrder(st, id).store;
      DeleteOrderPreservesValid(st, id);
    case CreateProductOp(fields, productId) =>
      assert Step(st, op) == CreateProduct(st, fields, productId).store;
      CreateProductPreservesValid(st, fields, productId);
    case UpdateProductOp(id, body) =>
      assert Step(st, op) == UpdateProductChecked(st, id, body).store;
      UpdateProductPreservesValid(st, id, body);
    case DeleteProductOp(id) =>
      assert Step(st, op) == DeleteProduct(st, id).store;
      DeleteProductPreservesValid(st, id);
    case InsertUserOp(userId, name, email) =>
      assert Step(st, op) == InsertUser(st, userId, name, email).store;
      InsertUserPreservesValid(st, userId, name, email);
    case DeleteUserOp(id) =>
      assert Step(st, op) == DeleteUser(st, id).store;
      DeleteUserPreservesValid(st, id);
  }

  /** Stock never goes negative: from a valid store, after any sequence of requests, with
      product updates read as their validators intend, every product's quantity and price are
      still at least zero and every order line asks for at least one unit. */
  lemma {:induction false} StockNeverNegative(st: Store, ops: seq<Op>)
    requires Valid(st)
    ensures Valid(Run(st, ops))
    ensures forall id :: id in Run(st, ops).products ==>
      Run(st, ops).products[id].quantity >= 0 && Run(st, ops).products[id].price >= 0.0
    decreases |ops|
  {
    if ops != [] {
      StepPreservesValid(st, ops[0]);
      StockNeverNegative(Step(st, ops[0]), ops[1..]);
    }
  }
}

=== FILE: inventory.dfy ===
/** Stock bookkeeping of the order controller: the per-line debit loop of `createOrder` and the
    per-line credit loop of `deleteOrder`, both over the product collection. */
module Inventory {
  import opened Wrappers
  import opened Ids
  import opened Schema
  import opened Collections

  type Stock = map<Id, Product>

  /** One element of the `products` array in a create-order request body. */
  datatype LineRequest = LineRequest(product: Option<string>, quantity: Option<int>)

  /** Where the debit loop ended: after every line, or at line `at` with the error it answered. */
  datatype Reservation =
    | Reserved(lines: seq<Line>, stock: Stock)
    | Stopped(at: nat, error: Error, stock: Stock)

  /** Where the credit loop ended; `complete` is false when a save threw part-way. */
  datatype Restock = Restock(complete: bool, stock: Stock)

  /** Total quantity the lines take from product `p`. */
  function Demand(lines: seq<Line>, p: Id): int {
    if lines == [] then 0
    else (if lines[0].product == p then lines[0].quantity else 0) + Demand(lines[1..], p)
  }

  lemma {:induction false} DemandAppend(a: seq<Line>, b: seq<Line>, p: Id)
    ensures Demand(a + b, p) == Demand(a, p) + Demand(b, p)
  {
    if a == [] {
      assert a + b == b;
    } else {
      assert (a + b)[1..] == a[1..] + b;
      DemandAppend(a[1..], b, p);
    }
  }

  lemma {:induction false} DemandNonNegative(lines: seq<Line>, p: Id)
    requires forall i :: 0 <= i < |lines| ==> lines[i].quantity >= 0
    ensures Demand(lines, p) >= 0
  {
    if lines != [] {
      DemandNonNegative(lines[1..], p);
    }
  }

  predicate StockValid(stock: Stock) {
    forall id :: id in stock ==> ProductSchemaValid(stock[id])
  }

  /** Every product a line names, where it still exists, meets the schema. */
  predicate LinesValid(stock: Stock, lines: seq<Line>) {
    forall i :: 0 <= i < |lines| && lines[i].product in stock ==> ProductSchemaValid(stock[lines[i].product])
  }

  /** Same products, and each keeps every field except possibly its quantity. */
  predicate OnlyQuantitiesChange(before: Stock, after: Stock) {
    && after.Keys == before.Keys
    && forall id :: id in after ==> after[id] == before[id].(quantity := after[id].quantity)
  }

  /** `after` is `before` with each product's stock lowered by what the lines take from it. */
  predicate Debited(before: Stock, after: Stock, lines: seq<Line>) {
    && after.Keys == before.Keys
    && forall id :: id in before ==> after[id] == before[id].(quantity := before[id].quantity - Demand(lines, id))
  }

  /** `after` is `before` with each product's stock raised by what the lines took from it. */
  predicate Credited(before: Stock, after: Stock, lines: seq<Line>) {
    && after.Keys == before.Keys
    && forall id :: id in before ==> after[id] == before[id].(quantity := before[id].quantity + Demand(lines, id))
  }

  lemma DebitedCompose(a: Stock, b: Stock, c: Stock, l1: seq<Line>, l2: seq<Line>)
    requires Debited(a, b, l1) && Debited(b, c, l2)
    ensures Debited(a, c, l1 + l2)
  {
    forall id | id in a
      ensures c[id] == a[id].(quantity := a[id].quantity - Demand(l1 + l2, id))
    {
      DemandAppend(l1, l2, id);
    }
  }

  lemma CreditedCompose(a: Stock, b: Stock, c: Stock, l1: seq<Line>, l2: seq<Line>)
    requires Credited(a, b, l1) && Credited(b, c, l2)
    ensures Credited(a, c, l1 + l2)
  {
    forall id | id in a
      ensures c[id] == a[id].(quantity := a[id].quantity + Demand(l1 + l2, id))
    {
      DemandAppend(l1, l2, id);
    }
  }

  /** A line passes the first check of the loop: a truthy product id and a positive quantity. */
  predicate LineAcceptable(item: LineRequest) {
    Present(item.product) && item.quantity.Some? && item.quantity.value > 0
  }

  predicate AllAcceptable(items: seq<LineRequest>) {
    forall i :: 0 <= i < |items| ==> LineAcceptable(items[i])
  }

  /** The order lines a request asks for, in request order. */
  function Requested(items: seq<LineRequest>): (lines: seq<Line>)
    requires AllAcceptable(items)
    ensures |lines| == |items|
    ensures forall i :: 0 <= i < |items| ==> lines[i] == Line(items[i].product.value, items[i].quantity.value)
  {
    if items == [] then [] else [Line(items[0].product.value, items[0].quantity.value)] + Requested(items[1..])
  }

  lemma RequestedCons(items: seq<LineRequest>)
    requires items != [] && LineAcceptable(items[0]) && AllAcceptable(items[1..])
    ensures AllAcceptable(items)
    ensures Requested(items) == [Line(items[0].product.value, items[0].quantity.value)] + Requested(items[1..])
  {
    forall i | 0 < i < |items|
      ensures LineAcceptable(items[i])
    {
      assert items[i] == items[1..][i - 1];
    }
  }

  /** One iteration of the debit loop: check the line, re-read the product, check its stock,
      lower it and save it (the save runs the schema validators). */
  function ReserveLine(stock: Stock, item: LineRequest): (r: Result<(Line, Stock), Error>)
    ensures r == Err(InvalidLine) <==> !LineAcceptable(item)
    ensures r == Err(MalformedId) <==> LineAcceptable(item) && !IsObjectId(item.product.value)
    ensures r == Err(NotFound) <==>
      LineAcceptable(item) && IsObjectId(item.product.value) && item.product.value !in stock
    ensures r.Err? && r.error.InsufficientStock? <==>
      && LineAcceptable(item) && IsObjectId(item.product.value) && item.product.value in stock
      && stock[item.product.value].quantity < item.quantity.value
    ensures r.Err? && r.error.InsufficientStock? ==>
      r == Err(InsufficientStock(stock[item.product.value].quantity, item.quantity.value))
    ensures r.Ok? ==>
      && r.value.0 == Line(item.product.value, item.quantity.value)
      && Debited(stock, r.value.1, [r.value.0])
      && r.value.1[item.product.value].quantity >= 0
    ensures r.Ok? ==> LineAcceptable(item) && IsObjectId(item.product.value) && item.product.value in stock
    ensures r.Ok? ==> OnlyQuantitiesChange(stock, r.value.1)
    ensures r.Ok? ==> ProductSchemaValid(r.value.1[item.product.value])
    ensures r.Ok? ==> forall id :: id in stock && id != item.product.value ==> r.value.1[id] == stock[id]
    ensures r.Ok? && StockValid(stock) ==> StockValid(r.value.1)
    ensures
      && LineAcceptable(item) && IsObjectId(item.product.value) && item.product.value in stock
      && ProductSchemaValid(stock[item.product.value])
      && item.quantity.value <= stock[item.product.value].quantity
      ==> r.Ok?
  {
    if !Present(item.product) || item.quantity.None? || item.quantity.value <= 0 then Err(InvalidLine)
    else
      var id, q := item.product.value, item.quantity.value;
      if !IsObjectId(id) then Err(MalformedId)
      else if id !in stock then Err(NotFound)
      else if stock[id].quantity < q then Err(InsufficientStock(stock[id].quantity, q))
      else
        var p := stock[id].(quantity := stock[id].quantity - q);
        if !ProductSchemaValid(p) then Err(SchemaViolation)
        else Ok((Line(id, q), stock[id := p]))
  }

  /** The debit loop of `createOrder`. A line that fails ends the loop; the products saved for
      the lines before it stay saved. */
  function ReserveLines(stock: Stock, items: seq<LineRequest>): (r: Reservation)
    ensures OnlyQuantitiesChange(stock, r.stock)
    ensures StockValid(stock) ==> StockValid(r.stock)
    ensures r.Reserved? ==> AllAcceptable(items) && r.lines == Requested(items) && Debited(stock, r.stock, r.lines)
    ensures r.Stopped? ==> r.at < |items|
    decreases |items|
  {
    if items == [] then Reserved([], stock)
    else match ReserveLine(stock, items[0])
      case Err(e) => Stopped(0, e, stock)
      case Ok(step) =>
        match ReserveLines(step.1, items[1..])
        case Reserved(lines, after) =>
          RequestedCons(items);
          DebitedCompose(stock, step.1, after, [step.0], lines);
          Reserved([step.0] + lines, after)
        case Stopped(k, e, after) => Stopped(k + 1, e, after)
  }

  /** The credit loop of `deleteOrder`: products that no longer exist are skipped; a save the
      validators refuse throws and ends the loop with the earlier credits kept. */
  function ReleaseLines(stock: Stock, lines: seq<Line>): (r: Restock)
    ensures OnlyQuantitiesChange(stock, r.stock)
    ensures StockValid(stock) ==> StockValid(r.stock)
    ensures r.complete ==> Credited(stock, r.stock, lines)
    decreases |lines|
  {
    if lines == [] then Restock(true, stock)
    else
      var l := lines[0];
      if l.product in stock then
        var p := stock[l.product].(quantity := stock[l.product].quantity + l.quantity);
        if !ProductSchemaValid(p) then Restock(false, stock)
        else
          var next := stock[l.product := p];
          assert Credited(stock, next, [l]);
          var r := ReleaseLines(next, lines[1..]);
          if r.complete then
            CreditedCompose(stock, next, r.stock, [l], lines[1..]);
            assert [l] + lines[1..] == lines;
            r
          else r
      else
        assert Credited(stock, stock, [l]);
        var r := ReleaseLines(stock, lines[1..]);
        if r.complete then
          CreditedCompose(stock, stock, r.stock, [l], lines[1..]);
          assert [l] + lines[1..] == lines;
          r
        else r
  }

  /** Every line the debit loop accepted names a well-formed id of an existing product. */
  lemma {:induction false} ReservedLinesResolve(stock: Stock, items: seq<LineRequest>)
    requires ReserveLines(stock, items).Reserved?
    ensures forall i :: 0 <= i < |items| ==> IsObjectId(items[i].product.value) && items[i].product.value in stock
    decreases |items|
  {
    if items != [] {
      var step := ReserveLine(stock, items[0]);
      ReservedLinesResolve(step.value.1, items[1..]);
      forall i | 1 <= i < |items|
        ensures IsObjectId(items[i].product.value) && items[i].product.value in stock
      {
        assert items[i] == items[1..][i - 1];
      }
    }
  }

  /** One accepted line, then the loop over the rest. */
  lemma ReserveLinesStep(stock: Stock, items: seq<LineRequest>)
    requires items != [] && ReserveLine(stock, items[0]).Ok?
    ensures
      var rest := ReserveLines(ReserveLine(stock, items[0]).value.1, items[1..]);
      var r := ReserveLines(stock, items);
      && (rest.Reserved? ==> r.Reserved? && r.stock == rest.stock)
      && (rest.Stopped? ==> r == Stopped(rest.at + 1, rest.error, rest.stock))
  {
    var step := ReserveLine(stock, items[0]).value;
    assert ReserveLine(stock, items[0]) == Ok(step);
  }

  lemma PrefixShift<T>(s: seq<T>, k: nat)
    requires k < |s|
    ensures s[..k + 1][0] == s[0] && s[..k + 1][1..] == s[1..][..k]
  {
  }

  lemma StoppedAtFirst(stock: Stock, items: seq<LineRequest>)
    requires items != [] && ReserveLine(stock, items[0]).Err?
    ensures ReserveLines(stock, items) == Stopped(0, ReserveLine(stock, items[0]).error, stock)
    ensures ReserveLines(stock, items[..0]) == Reserved([], stock)
  {
    assert items[..0] == [];
  }

  /** When line `k` fails, the stock is exactly what the first `k` lines left behind: their
      debits persist, and the failing line itself saved nothing. */
  lemma {:induction false} StoppedKeepsPrefix(stock: Stock, items: seq<LineRequest>)
    requires ReserveLines(stock, items).Stopped?
    ensures
      var r := ReserveLines(stock, items);
      var before := ReserveLines(stock, items[..r.at]);
      && before.Reserved? && before.stock == r.stock
      && ReserveLine(r.stock, items[r.at]) == Err(r.error)
    decreases |items|
  {
    var r := ReserveLines(stock, items);
    match ReserveLine(stock, items[0])
    case Err(e) =>
      StoppedAtFirst(stock, items);
    case Ok(step) =>
      ReserveLinesStep(stock, items);
      var rest := ReserveLines(step.1, items[1..]);
      StoppedKeepsPrefix(step.1, items[1..]);
      PrefixAfterStep(stock, items, rest.at, rest.stock);
      assert items[r.at] == items[1..][rest.at];
  }

  /** A prefix the loop gets through after a successful first line is one it gets through
      from the start, ending with the same stock. */
  lemma PrefixAfterStep(stock: Stock, items: seq<LineRequest>, k: nat, after: Stock)
    requires k < |items| - 1 && ReserveLine(stock, items[0]).Ok?
    requires
      var inner := ReserveLines(ReserveLine(stock, items[0]).value.1, items[1..][..k]);
      inner.Reserved? && inner.stock == after
    ensures
      var before := ReserveLines(stock, items[..k + 1]);
      before.Reserved? && before.stock == after
  {
    PrefixShift(items, k);
    ReserveLinesStep(stock, items[..k + 1]);
  }

  /** Lines that are well formed and name existing, valid products: the debit loop gets through
      all of them exactly when, for every product, the lines together ask for no more than its
      stock. Two lines for the same product therefore need their sum to fit. */
  lemma ReserveSucceedsIffStockCovers(stock: Stock, items: seq<LineRequest>)
    requires StockValid(stock)
    requires AllAcceptable(items)
    requires forall i :: 0 <= i < |items| ==> IsObjectId(items[i].product.value) && items[i].product.value in stock
    ensures ReserveLines(stock, items).Reserved? <==>
      forall id :: id in stock ==> Demand(Requested(items), id) <= stock[id].quantity
  {
    var r := ReserveLines(stock, items);
    if r.Reserved? {
      forall id | id in stock
        ensures Demand(Requested(items), id) <= stock[id].quantity
      {
        assert ProductSchemaValid(r.stock[id]);
      }
    }
    if forall id :: id in stock ==> Demand(Requested(items), id) <= stock[id].quantity {
      CoveredReserves(stock, items);
    }
  }

  lemma {:induction false} CoveredReserves(stock: Stock, items: seq<LineRequest>)
    requires StockValid(stock)
    requires AllAcceptable(items)
    requires forall i :: 0 <= i < |items| ==> IsObjectId(items[i].product.value) && items[i].product.value in stock
    requires forall id :: id in stock ==> Demand(Requested(items), id) <= stock[id].quantity
    ensures ReserveLines(stock, items).Reserved?
    decreases |items|
  {
    if items != [] {
      var id, q := items[0].product.value, items[0].quantity.value;
      var line := Line(id, q);
      var rest := Requested(items[1..]);
      assert Requested(items) == [line] + rest;
      DemandNonNegative(rest, id);
      DemandAppend([line], rest, id);
      var step := ReserveLine(stock, items[0]);
      assert step.Ok?;
      var next := step.value.1;
      forall p | p in next
        ensures Demand(rest, p) <= next[p].quantity
      {
        DemandAppend([line], rest, p);
      }
      assert forall i :: 0 <= i < |items[1..]| ==> items[1..][i] == items[i + 1];
      CoveredReserves(next, items[1..]);
    }
  }

  /** When the products the lines name are valid and no line quantity is negative, no save
      in the credit loop fails; the other products play no part. */
  lemma {:induction false} ReleaseCompletes(stock: Stock, lines: seq<Line>)
    requires LinesValid(stock, lines)
    requires forall i :: 0 <= i < |lines| ==> lines[i].quantity >= 0
    ensures ReleaseLines(stock, lines).complete
    decreases |lines|
  {
    if lines != [] {
      var l := lines[0];
      var tail := lines[1..];
      if l.product in stock {
        var p := stock[l.product].(quantity := stock[l.product].quantity + l.quantity);
        assert ProductSchemaValid(p);
        var next := stock[l.product := p];
        forall i | 0 <= i < |tail| && tail[i].product in next
          ensures ProductSchemaValid(next[tail[i].product])
        {
          assert tail[i] == lines[i + 1];
        }
        ReleaseCompletes(next, tail);
      } else {
        forall i | 0 <= i < |tail| && tail[i].product in stock
          ensures ProductSchemaValid(stock[tail[i].product])
        {
          assert tail[i] == lines[i + 1];
        }
        ReleaseCompletes(stock, tail);
      }
    }
  }

  /** After the debit loop gets through, every product a line names passed the validators
      when it was last saved, and a product that met the schema still does. */
  lemma {:induction false} ReservedKeepsTouchedValid(stock: Stock, items: seq<LineRequest>)
    requires ReserveLines(stock, items).Reserved?
    ensures LinesValid(ReserveLines(stock, items).stock, ReserveLines(stock, items).lines)
    ensures forall id :: id in stock && ProductSchemaValid(stock[id]) ==>
      ProductSchemaValid(ReserveLines(stock, items).stock[id])
    decreases |items|
  {
    var r := ReserveLines(stock, items);
    if items != [] {
      var step := ReserveLine(stock, items[0]).value;
      var rest := ReserveLines(step.1, items[1..]);
      assert r == Reserved([step.0] + rest.lines, rest.stock);
      ReservedKeepsTouchedValid(step.1, items[1..]);
      forall i | 0 <= i < |r.lines| && r.lines[i].product in r.stock
        ensures ProductSchemaValid(r.stock[r.lines[i].product])
      {
        if i > 0 {
          assert r.lines[i] == rest.lines[i - 1];
        }
      }
    }
  }

  /** Crediting what was debited gives back the original products. */
  lemma DebitThenCreditRestores(a: Stock, b: Stock, c: Stock, lines: seq<Line>)
    requires Debited(a, b, lines) && Credited(b, c, lines)
    ensures c == a
  {
    forall id | id in a
      ensures c[id] == a[id]
    {
    }
  }
}

=== FILE: order_controller.dfy ===
/** The order request handlers: create, list, read, change status, delete, list by user. */
module OrderController {
  import opened Wrappers
  import opened Ids
  import opened Schema
  import opened Collections
  import opened Inventory

  /** The body of a create-order request. `totalAmount` is taken from the client as is. */
  datatype OrderRequest = OrderRequest(user: Option<string>, products: Option<seq<LineRequest>>, totalAmount: Option<real>)

  /** The presence check at the top of `createOrder`: a truthy user, a non-empty products
      array and a total that is neither undefined nor null (zero and negative totals pass). */
  predicate RequestComplete(req: OrderRequest) {
    && Present(req.user)
    && req.products.Some? && |req.products.value| > 0
    && req.totalAmount.Some?
  }

  /** The checks `createOrder` makes before it touches any stock. */
  predicate UserChecksPass(st: Store, req: OrderRequest) {
    RequestComplete(req) && IsObjectId(req.user.value) && req.user.value in st.users
  }

  /** `createOrder`, with `newId` the id the store gives the new order. */
  function CreateOrder(st: Store, req: OrderRequest, newId: Id): (r: Reply<Order>)
    ensures !RequestComplete(req) ==> r == Reply(Err(MissingFields), st)
    ensures RequestComplete(req) && !IsObjectId(req.user.value) ==> r == Reply(Err(MalformedId), st)
    ensures RequestComplete(req) && IsObjectId(req.user.value) && req.user.value !in st.users ==>
      r == Reply(Err(NotFound), st)
    ensures r.store.users == st.users
    ensures OnlyQuantitiesChange(st.products, r.store.products)
    ensures StockValid(st.products) ==> StockValid(r.store.products)
    ensures r.result.Err? ==> r.store.orders == st.orders
    ensures r.result.Ok? ==>
      && UserChecksPass(st, req)
      && AllAcceptable(req.products.value)
      && r.result.value == Order(req.user.value, Requested(req.products.value), req.totalAmount.value, DefaultStatus)
      && newId !in st.orders
      && r.store.orders == st.orders[newId := r.result.value]
      && Debited(st.products, r.store.products, r.result.value.lines)
  {
    if !RequestComplete(req) then Reply(Err(MissingFields), st)
    else if !IsObjectId(req.user.value) then Reply(Err(MalformedId), st)
    else if req.user.value !in st.users then Reply(Err(NotFound), st)
    else match ReserveLines(st.products, req.products.value)
      case Stopped(_, e, stock) => Reply(Err(e), st.(products := stock))
      case Reserved(lines, stock) =>
        var order := Order(req.user.value, lines, req.totalAmount.value, DefaultStatus);
        var debited := st.(products := stock);
        if !OrderSchemaValid(order) then Reply(Err(SchemaViolation), debited)
        else if newId in st.orders then Reply(Err(ServerError), debited)
        else Reply(Ok(order), debited.(orders := st.orders[newId := order]))
  }

  /** `getOrders`: every stored order. */
  function GetOrders(st: Store): (r: map<Id, Order>)
    ensures r.Keys == st.orders.Keys
    ensures forall id :: id in r ==> r[id] == st.orders[id]
  {
    st.orders
  }

  /** `getOrderById`: a malformed id is a cast error, answered apart from a missing order. */
  function GetOrderById(st: Store, id: Id): (r: Result<Order, Error>)
    ensures r.Ok? <==> IsObjectId(id) && id in st.orders
    ensures r.Ok? ==> r.value == st.orders[id]
    ensures r == Err(MalformedId) <==> !IsObjectId(id)
    ensures r == Err(NotFound) <==> IsObjectId(id) && id !in st.orders
  {
    if !IsObjectId(id) then Err(MalformedId)
    else if id !in st.orders then Err(NotFound)
    else Ok(st.orders[id])
  }

  /** `updateOrderStatus`: any allowed status may replace any other; nothing but the status changes. */
  function UpdateOrderStatus(st: Store, id: Id, status: Option<string>): (r: Reply<Order>)
    ensures r.store.users == st.users && r.store.products == st.products
    ensures !Present(status) ==> r == Reply(Err(MissingFields), st)
    ensures Present(status) && !IsObjectId(id) ==> r == Reply(Err(MalformedId), st)
    ensures Present(status) && IsObjectId(id) && id !in st.orders ==> r == Reply(Err(NotFound), st)
    ensures Present(status) && IsObjectId(id) && id in st.orders && status.value !in AllowedStatuses ==>
      r == Reply(Err(InvalidStatus), st)
    ensures r.result.Err? ==> r.store == st
    ensures r.result.Ok? ==>
      && Present(status) && id in st.orders
      && StatusName(r.result.value.status) == status.value
      && r.result.value == st.orders[id].(status := r.result.value.status)
      && r.store.orders == st.orders[id := r.result.value]
  {
    if !Present(status) then Reply(Err(MissingFields), st)
    else if !IsObjectId(id) then Reply(Err(MalformedId), st)
    else if id !in st.orders then Reply(Err(NotFound), st)
    else match ParseStatus(status.value)
      case None => Reply(Err(InvalidStatus), st)
      case Some(s) =>
        var order := st.orders[id].(status := s);
        if !OrderSchemaValid(order) then Reply(Err(SchemaViolation), st)
        else Reply(Ok(order), st.(orders := st.orders[id := order]))
  }

  /** `deleteOrder`: give the stock of each line back to its product if that product still
      exists, then remove the order. */
  function DeleteOrder(st: Store, id: Id): (r: Reply<()>)
    ensures r.store.users == st.users
    ensures OnlyQuantitiesChange(st.products, r.store.products)
    ensures StockValid(st.products) ==> StockValid(r.store.products)
    ensures !IsObjectId(id) ==> r == Reply(Err(MalformedId), st)
    ensures IsObjectId(id) && id !in st.orders ==> r == Reply(Err(NotFound), st)
    ensures r.result.Err? ==> r.store.orders == st.orders
    ensures r.result.Ok? ==>
      && id in st.orders
      && r.store.orders == st.orders - {id}
      && Credited(st.products, r.store.products, st.orders[id].lines)
  {
    if !IsObjectId(id) then Reply(Err(MalformedId), st)
    else if id !in st.orders then Reply(Err(NotFound), st)
    else
      var released := ReleaseLines(st.products, st.orders[id].lines);
      if !released.complete then Reply(Err(ServerError), st.(products := released.stock))
      else Reply(Ok(()), st.(products := released.stock, orders := st.orders - {id}))
  }

  /** The orders whose user reference is `uid`. */
  function OrdersOf(orders: map<Id, Order>, uid: Id): (r: map<Id, Order>)
    ensures forall id :: id in r <==> id in orders && orders[id].user == uid
    ensures forall id :: id in r ==> r[id] == orders[id]
  {
    map id | id in orders && orders[id].user == uid :: orders[id]
  }

  /** `getOrdersByUser`: orders found are returned without asking whether the user exists;
      only when there are none does the user lookup tell "no orders" from "no such user". */
  function GetOrdersByUser(st: Store, uid: Id): (r: Result<map<Id, Order>, Error>)
    ensures r == Err(MalformedId) <==> !IsObjectId(uid)
    ensures r == Err(NotFound) <==> IsObjectId(uid) && uid !in st.users && OrdersOf(st.orders, uid) == map[]
    ensures r.Ok? <==> IsObjectId(uid) && (uid in st.users || OrdersOf(st.orders, uid) != map[])
    ensures r.Ok? ==> forall id :: id in r.value <==> id in st.orders && st.orders[id].user == uid
    ensures r.Ok? ==> forall id :: id in r.value ==> r.value[id] == st.orders[id]
  {
    if !IsObjectId(uid) then Err(MalformedId)
    else
      var found := OrdersOf(st.orders, uid);
      if found == map[] then
        if uid !in st.users then Err(NotFound) else Ok(found)
      else Ok(found)
  }
}

=== FILE: order_lifecycle.dfy ===
/** Properties of the order handlers that relate several steps or several calls. */
module OrderLifecycle {
  import opened Wrappers
  import opened Ids
  import opened Schema
  import opened Collections
  import opened Inventory
  import opened OrderController
  import opened ProductController
  import opened Users

  lemma AddThenRemove<K, V>(m: map<K, V>, k: K, v: V)
    requires k !in m
    ensures m[k := v] - {k} == m
  {
  }

  /** A valid store holds no negative stock. */
  lemma ValidStock(st: Store)
    requires Valid(st)
    ensures StockValid(st.products)
  {
  }

  /** An order `createOrder` stores meets the order schema and has at least one line. */
  lemma CreatedOrderIsStored(st: Store, req: OrderRequest, newId: Id)
    requires CreateOrder(st, req, newId).result.Ok?
    ensures StoredOrder(CreateOrder(st, req, newId).result.value)
  {
    var order := CreateOrder(st, req, newId).result.value;
    var items := req.products.value;
    ReservedLinesResolve(st.products, items);
    forall i | 0 <= i < |order.lines|
      ensures LineSchemaValid(order.lines[i])
    {
      assert order.lines[i] == Line(items[i].product.value, items[i].quantity.value);
      assert LineAcceptable(items[i]);
    }
  }

  /** A line that fails ends `createOrder` with that line's error and no order. The stock is
      what the lines before it left: their debits are not rolled back. */
  lemma CreateOrderKeepsEarlierDebits(st: Store, req: OrderRequest, newId: Id)
    requires UserChecksPass(st, req)
    requires ReserveLines(st.products, req.products.value).Stopped?
    ensures
      var items := req.products.value;
      var stop := ReserveLines(st.products, items);
      var r := CreateOrder(st, req, newId);
      && r.result == Err(stop.error)
      && r.store.orders == st.orders
      && AllAcceptable(items[..stop.at])
      && Debited(st.products, r.store.products, Requested(items[..stop.at]))
      && ReserveLine(r.store.products, items[stop.at]) == Err(stop.error)
  {
    StoppedKeepsPrefix(st.products, req.products.value);
  }

  /** A negative total passes the presence check and is refused only when the order is
      created, after the stock was saved: the first line's product has lost stock although
      no order exists. */
  lemma NegativeTotalLeaksStock(st: Store, req: OrderRequest, newId: Id)
    requires UserChecksPass(st, req)
    requires ReserveLines(st.products, req.products.value).Reserved?
    requires req.totalAmount.value < 0.0
    ensures
      var r := CreateOrder(st, req, newId);
      var first := req.products.value[0].product.value;
      && r.result == Err(SchemaViolation)
      && r.store.orders == st.orders
      && first in st.products
      && r.store.products[first].quantity < st.products[first].quantity
  {
    var items := req.products.value;
    ReservedLinesResolve(st.products, items);
    var lines := Requested(items);
    var first := items[0].product.value;
    assert lines == [lines[0]] + lines[1..];
    DemandAppend([lines[0]], lines[1..], first);
    DemandNonNegative(lines[1..], first);
  }

  /** A request that passes the user checks and the line loop, builds a schema-valid order
      and has a fresh id is created. */
  lemma ReservedCreates(st: Store, req: OrderRequest, newId: Id)
    requires UserChecksPass(st, req)
    requires ReserveLines(st.products, req.products.value).Reserved?
    requires
      var lines := ReserveLines(st.products, req.products.value).lines;
      OrderSchemaValid(Order(req.user.value, lines, req.totalAmount.value, DefaultStatus))
    requires newId !in st.orders
    ensures CreateOrder(st, req, newId).result.Ok?
  {
  }

  /** Well-formed requested lines meet the line schema. */
  lemma RequestedLinesValid(items: seq<LineRequest>)
    requires AllAcceptable(items)
    requires forall i :: 0 <= i < |items| ==> IsObjectId(items[i].product.value)
    ensures forall i :: 0 <= i < |Requested(items)| ==> LineSchemaValid(Requested(items)[i])
  {
    var lines := Requested(items);
    forall i | 0 <= i < |lines|
      ensures LineSchemaValid(lines[i])
    {
      assert LineAcceptable(items[i]);
    }
  }

  /** For a request that passes every presence and reference check, with a non-negative total
      and a fresh id, `createOrder` succeeds exactly when every product's stock covers what
      all the lines together ask of it. */
  lemma CreateOrderSucceedsIffStockCovers(st: Store, req: OrderRequest, newId: Id)
    requires Valid(st)
    requires UserChecksPass(st, req)
    requires AllAcceptable(req.products.value)
    requires forall i :: 0 <= i < |req.products.value| ==>
      IsObjectId(req.products.value[i].product.value) && req.products.value[i].product.value in st.products
    requires req.totalAmount.value >= 0.0
    requires newId !in st.orders
    ensures CreateOrder(st, req, newId).result.Ok? <==>
      forall id :: id in st.products ==> Demand(Requested(req.products.value), id) <= st.products[id].quantity
  {
    var items := req.products.value;
    ValidStock(st);
    ReserveSucceedsIffStockCovers(st.products, items);
    if ReserveLines(st.products, items).Reserved? {
      RequestedLinesValid(items);
      ReservedCreates(st, req, newId);
    }
  }

  /** `deleteOrder` on a stored order of a valid store always succeeds. */
  lemma DeleteOrderSucceeds(st: Store, id: Id)
    requires Valid(st)
    requires IsObjectId(id) && id in st.orders
    ensures DeleteOrder(st, id).result.Ok?
  {
    ReleaseCompletes(st.products, st.orders[id].lines);
  }

  /** Deleting a stored order whose lines are non-negative and name valid products removes it
      and credits its lines. */
  lemma DeleteStoredOrder(st: Store, id: Id)
    requires IsObjectId(id) && id in st.orders
    requires LinesValid(st.products, st.orders[id].lines)
    requires forall i :: 0 <= i < |st.orders[id].lines| ==> st.orders[id].lines[i].quantity >= 0
    ensures
      var deleted := DeleteOrder(st, id);
      && deleted.result.Ok?
      && deleted.store.users == st.users
      && deleted.store.orders == st.orders - {id}
      && Credited(st.products, deleted.store.products, st.orders[id].lines)
  {
    ReleaseCompletes(st.products, st.orders[id].lines);
  }

  /** A debit and a credit of the same lines, with the order added and removed, is no change. */
  lemma AddedThenRemovedRestores(st: Store, created: Store, deleted: Store, newId: Id, order: Order)
    requires newId !in st.orders
    requires created.users == st.users && created.orders == st.orders[newId := order]
    requires Debited(st.products, created.products, order.lines)
    requires deleted.users == created.users && deleted.orders == created.orders - {newId}
    requires Credited(created.products, deleted.products, order.lines)
    ensures deleted == st
  {
    DebitThenCreditRestores(st.products, created.products, deleted.products, order.lines);
    AddThenRemove(st.orders, newId, order);
  }

  /** Creating an order and then deleting it, with nothing in between, gives back the store
      as it was: every product's stock, the orders and the users. */
  lemma CreateThenDeleteRestores(st: Store, req: OrderRequest, newId: Id)
    requires IsObjectId(newId)
    requires CreateOrder(st, req, newId).result.Ok?
    ensures
      var created := CreateOrder(st, req, newId);
      var deleted := DeleteOrder(created.store, newId);
      deleted.result.Ok? && deleted.store == st
  {
    var created := CreateOrder(st, req, newId);
    var order := created.result.value;
    CreatedOrderIsStored(st, req, newId);
    ReservedKeepsTouchedValid(st.products, req.products.value);
    assert created.store.orders[newId] == order;
    DeleteStoredOrder(created.store, newId);
    var deleted := DeleteOrder(created.store, newId);
    AddedThenRemovedRestores(st, created.store, deleted.store, newId, order);
  }

  /** No transition rule: from any status, any of the five may be set, cancelled orders
      included, and only the status changes. */
  lemma AnyStatusFollowsAny(st: Store, id: Id, target: Status)
    requires Valid(st)
    requires IsObjectId(id) && id in st.orders
    ensures
      var r := UpdateOrderStatus(st, id, Some(StatusName(target)));
      && r.result == Ok(st.orders[id].(status := target))
      && r.store == st.(orders := st.orders[id := st.orders[id].(status := target)])
  {
    StatusRoundTrip(target);
  }

  /** Deleting a product leaves the orders that reference it alone; deleting such an order
      later still succeeds, skips the missing product and restocks the others. */
  lemma DeleteOrderSkipsDeletedProduct(st: Store, productId: Id, orderId: Id)
    requires Valid(st)
    requires IsObjectId(productId) && productId in st.products
    requires IsObjectId(orderId) && orderId in st.orders
    ensures
      var afterProduct := DeleteProduct(st, productId).store;
      var afterOrder := DeleteOrder(afterProduct, orderId);
      && afterProduct.orders == st.orders
      && afterOrder.result.Ok?
      && productId !in afterOrder.store.products
      && Credited(afterProduct.products, afterOrder.store.products, st.orders[orderId].lines)
  {
    var afterProduct := DeleteProduct(st, productId).store;
    assert Valid(afterProduct) by {
      assert forall id :: id in afterProduct.products ==> id in st.products && afterProduct.products[id] == st.products[id];
    }
    DeleteOrderSucceeds(afterProduct, orderId);
  }

  /** Removing a user does not remove that user's orders, and listing them by user still
      returns them although the user no longer exists. */
  lemma DeletedUsersOrdersStillListed(st: Store, uid: Id, orderId: Id)
    requires IsObjectId(uid) && uid in st.users
    requires orderId in st.orders && st.orders[orderId].user == uid
    ensures
      var after := DeleteUser(st, uid).store;
      var listed := GetOrdersByUser(after, uid);
      && uid !in after.users
      && listed.Ok? && orderId in listed.value
  {
    var after := DeleteUser(st, uid).store;
    assert orderId in OrdersOf(after.orders, uid);
  }

  /** What the read handlers see after a write: a created order is listed and can be read back
      under its new id; a deleted order is listed no more and reads as not found. */
  lemma ReadAfterWrite(st: Store, req: OrderRequest, newId: Id, deletedId: Id)
    requires IsObjectId(newId) && IsObjectId(deletedId)
    ensures
      var created := CreateOrder(st, req, newId);
      created.result.Ok? ==>
        && newId in GetOrders(created.store)
        && GetOrderById(created.store, newId) == Ok(created.result.value)
        && GetOrdersByUser(created.store, req.user.value).Ok?
        && newId in GetOrdersByUser(created.store, req.user.value).value
    ensures
      var deleted := DeleteOrder(st, deletedId);
      deleted.result.Ok? ==>
        && deletedId !in GetOrders(deleted.store)
        && GetOrderById(deleted.store, deletedId) == Err(NotFound)
  {
  }

  /** A product with one unit in stock, asked for two, refuses the line
      with the available and requested amounts, and nothing is saved. */
  lemma InsufficientStockExample(stock: Stock, id: Id)
    requires IsObjectId(id) && id in stock && stock[id].quantity == 1
    ensures ReserveLine(stock, LineRequest(Some(id), Some(2))) == Err(InsufficientStock(1, 2))
  {
  }
}

=== FILE: product_controller.dfy ===
/** The product request handlers that read or write the product collection. Every failure
    these handlers catch, cast errors and validation errors included, is answered as a
    server error. */
module ProductController {
  import opened Wrappers
  import opened Text
  import opened Ids
  import opened Schema
  import opened Collections

  /** The body of a create or update request; absent fields are `None`. */
  datatype ProductFields = ProductFields(
    name: Option<string>,
    description: Option<string>,
    price: Option<real>,
    quantity: Option<int>,
    category: Option<string>)

  /** The falsiness check at the top of `createProduct`: a zero price or a zero stock counts
      as missing, although the schema would accept both. */
  predicate CreateFieldsPresent(f: ProductFields) {
    && Present(f.name)
    && Present(f.description)
    && f.price.Some? && f.price.value != 0.0
    && f.quantity.Some? && f.quantity.value != 0
    && Present(f.category)
  }

  /** The product `createProduct` asks the store to save, its name trimmed by the schema. */
  function NewProduct(f: ProductFields): Product
    requires CreateFieldsPresent(f)
  {
    Product(Trim(f.name.value), f.description.value, f.price.value, f.quantity.value, f.category.value)
  }

  /** `createProduct`, with `newId` the id the store gives the new product. */
  function CreateProduct(st: Store, f: ProductFields, newId: Id): (r: Reply<Product>)
    ensures r.store.users == st.users && r.store.orders == st.orders
    ensures !CreateFieldsPresent(f) ==> r == Reply(Err(MissingFields), st)
    ensures r.result == Err(MissingFields) <==> !CreateFieldsPresent(f)
    ensures r.result.Ok? <==>
      CreateFieldsPresent(f) && ProductSchemaValid(NewProduct(f)) && newId !in st.products
    ensures CreateFieldsPresent(f) && !(ProductSchemaValid(NewProduct(f)) && newId !in st.products) ==>
      r == Reply(Err(ServerError), st)
    ensures f.price == Some(0.0) || f.quantity == Some(0) ==> r == Reply(Err(MissingFields), st)
    ensures r.result.Err? ==> r.store == st
    ensures r.result.Ok? ==>
      && newId !in st.products
      && r.store.products == st.products[newId := r.result.value]
      && StoredProduct(r.result.value)
      && r.result.value.name == Trim(f.name.value)
      && r.result.value.description == f.description.value
      && r.result.value.price == f.price.value
      && r.result.value.quantity == f.quantity.value
      && r.result.value.category == f.category.value
  {
    if !CreateFieldsPresent(f) then Reply(Err(MissingFields), st)
    else
      var p := NewProduct(f);
      if !ProductSchemaValid(p) then Reply(Err(ServerError), st)
      else if newId in st.products then Reply(Err(ServerError), st)
      else
        TrimIdempotent(f.name.value);
        Reply(Ok(p), st.(products := st.products[newId := p]))
  }

  /** `getProductById`. */
  function GetProductById(st: Store, id: Id): (r: Result<Product, Error>)
    ensures r.Ok? <==> IsObjectId(id) && id in st.products
    ensures r.Ok? ==> r.value == st.products[id]
    ensures r == Err(NotFound) <==> IsObjectId(id) && id !in st.products
    ensures r == Err(ServerError) <==> !IsObjectId(id)
  {
    if !IsObjectId(id) then Err(ServerError)
    else if id !in st.products then Err(NotFound)
    else Ok(st.products[id])
  }

  /** The validators the update runs: only on the fields it sets, after the name is trimmed. */
  predicate PatchValid(f: ProductFields) {
    && (f.name.Some? ==> Trim(f.name.value) != "")
    && (f.description.Some? ==> f.description.value != "")
    && (f.price.Some? ==> f.price.value >= 0.0)
    && (f.quantity.Some? ==> f.quantity.value >= 0)
    && (f.category.Some? ==> IsObjectId(f.category.value))
  }

  /** The product with the supplied fields overwritten. */
  function Patch(p: Product, f: ProductFields): (q: Product)
    ensures q.name == (if f.name.Some? then Trim(f.name.value) else p.name)
    ensures q.description == (if f.description.Some? then f.description.value else p.description)
    ensures q.price == (if f.price.Some? then f.price.value else p.price)
    ensures q.quantity == (if f.quantity.Some? then f.quantity.value else p.quantity)
    ensures q.category == (if f.category.Some? then f.category.value else p.category)
  {
    Product(
      if f.name.Some? then Trim(f.name.value) else p.name,
      if f.description.Some? then f.description.value else p.description,
      if f.price.Some? then f.price.value else p.price,
      if f.quantity.Some? then f.quantity.value else p.quantity,
      if f.category.Some? then f.category.value else p.category)
  }

  /** The body of an update request. The handler hands the whole body to the update, so
      besides assigning fields it may carry the `$inc` operator, which adds to the stock or
      to the price; `None` means the body does not increment that field. */
  datatype UpdateBody = UpdateBody(fields: ProductFields, incQuantity: Option<int>, incPrice: Option<real>)

  /** A body that assigns nothing. */
  const NoFields := ProductFields(None, None, None, None, None)

  /** Assigning a field and incrementing it in the same update is refused by the database. */
  predicate Conflicts(b: UpdateBody) {
    (b.incQuantity.Some? && b.fields.quantity.Some?) || (b.incPrice.Some? && b.fields.price.Some?)
  }

  /** The product after an update: the assigned fields overwritten, then the increments added. */
  function Apply(p: Product, b: UpdateBody): (q: Product)
    ensures q.name == Patch(p, b.fields).name && q.description == Patch(p, b.fields).description
    ensures q.category == Patch(p, b.fields).category
    ensures q.quantity == Patch(p, b.fields).quantity + (if b.incQuantity.Some? then b.incQuantity.value else 0)
    ensures q.price == Patch(p, b.fields).price + (if b.incPrice.Some? then b.incPrice.value else 0.0)
  {
    var q := Patch(p, b.fields);
    q.(quantity := if b.incQuantity.Some? then q.quantity + b.incQuantity.value else q.quantity,
       price := if b.incPrice.Some? then q.price + b.incPrice.value else q.price)
  }

  /** `updateProduct` as written: a missing product is reported and nothing is written;
      assigned fields must pass the validators, but increments are applied unchecked, because
      the update validators do not run on `$inc`. */
  function UpdateProduct(st: Store, id: Id, b: UpdateBody): (r: Reply<Product>)
    ensures r.store.users == st.users && r.store.orders == st.orders
    ensures !IsObjectId(id) ==> r == Reply(Err(ServerError), st)
    ensures IsObjectId(id) && id !in st.products ==> r == Reply(Err(NotFound), st)
    ensures IsObjectId(id) && id in st.products && (!PatchValid(b.fields) || Conflicts(b)) ==>
      r == Reply(Err(ServerError), st)
    ensures r.result.Err? ==> r.store == st
    ensures r.result.Ok? <==> IsObjectId(id) && id in st.products && PatchValid(b.fields) && !Conflicts(b)
    ensures r.result.Ok? ==>
      && r.result.value == Apply(st.products[id], b)
      && r.store.products == st.products[id := r.result.value]
    ensures b.fields.price.Some? && b.fields.price.value < 0.0 ==> r.result.Err?
    ensures b.fields.quantity.Some? && b.fields.quantity.value < 0 ==> r.result.Err?
    ensures r.result.Ok? && b.incQuantity.None? && b.incPrice.None? && StoredProduct(st.products[id]) ==>
      StoredProduct(r.result.value)
  {
    if !IsObjectId(id) then Reply(Err(ServerError), st)
    else if id !in st.products then Reply(Err(NotFound), st)
    else if !PatchValid(b.fields) || Conflicts(b) then Reply(Err(ServerError), st)
    else
      var p := Apply(st.products[id], b);
      assert b.incQuantity.None? && b.incPrice.None? && StoredProduct(st.products[id]) ==> StoredProduct(p) by {
        if b.incQuantity.None? && b.incPrice.None? && StoredProduct(st.products[id]) {
          PatchKeepsStored(st.products[id], b.fields);
        }
      }
      Reply(Ok(p), st.(products := st.products[id := p]))
  }

  /** What the schema's minimums demand of the incremented fields. */
  predicate IncrementsValid(q: Product, b: UpdateBody) {
    (b.incQuantity.Some? ==> q.quantity >= 0) && (b.incPrice.Some? ==> q.price >= 0.0)
  }

  /** `updateProduct` as its validators intend: an increment that would leave the stock or the
      price below zero is refused like any other validation failure, and a stored product
      stays a stored product. */
  function UpdateProductChecked(st: Store, id: Id, b: UpdateBody): (r: Reply<Product>)
    ensures r.store.users == st.users && r.store.orders == st.orders
    ensures !IsObjectId(id) ==> r == Reply(Err(ServerError), st)
    ensures IsObjectId(id) && id !in st.products ==> r == Reply(Err(NotFound), st)
    ensures r.result.Err? ==> r.store == st
    ensures r.result.Ok? <==>
      && IsObjectId(id) && id in st.products && PatchValid(b.fields) && !Conflicts(b)
      && IncrementsValid(Apply(st.products[id], b), b)
    ensures r.result.Ok? ==>
      && r.result.value == Apply(st.products[id], b)
      && r.store.products == st.products[id := r.result.value]
      && (StoredProduct(st.products[id]) ==> StoredProduct(r.result.value))
  {
    var r := UpdateProduct(st, id, b);
    if r.result.Ok? && !IncrementsValid(r.result.value, b) then Reply(Err(ServerError), st)
    else
      assert r.result.Ok? && StoredProduct(st.products[id]) ==> StoredProduct(r.result.value) by {
        if r.result.Ok? && StoredProduct(st.products[id]) {
          ApplyKeepsStored(st.products[id], b);
        }
      }
      r
  }

  /** Fields that pass the validators, written over a stored product, give a stored product. */
  lemma PatchKeepsStored(p: Product, f: ProductFields)
    requires StoredProduct(p) && PatchValid(f)
    ensures StoredProduct(Patch(p, f))
  {
    if f.name.Some? {
      TrimIdempotent(f.name.value);
    }
  }

  /** The same for a whole update, once its increments leave no negative field. */
  lemma ApplyKeepsStored(p: Product, b: UpdateBody)
    requires StoredProduct(p) && PatchValid(b.fields) && IncrementsValid(Apply(p, b), b)
    ensures StoredProduct(Apply(p, b))
  {
    PatchKeepsStored(p, b.fields);
  }

  /** The two readings differ only where an increment goes below zero: without `$inc` they
      give the same reply, and otherwise the corrected one refuses exactly what the as-written
      one stores with an incremented field below zero. */
  lemma CheckedAgreesUnlessNegative(st: Store, id: Id, b: UpdateBody)
    ensures b.incQuantity.None? && b.incPrice.None? ==> UpdateProductChecked(st, id, b) == UpdateProduct(st, id, b)
    ensures
      var r := UpdateProduct(st, id, b);
      UpdateProductChecked(st, id, b) != r <==>
        && r.result.Ok?
        && ((b.incQuantity.Some? && r.result.value.quantity < 0) || (b.incPrice.Some? && r.result.value.price < 0.0))
  {
  }

  /** The as-written update lets `$inc` take a stored product's stock below zero, so the
      store no longer meets the schema it was saved under. */
  lemma IncBypassesMinimum(st: Store, id: Id, n: int)
    requires IsObjectId(id) && id in st.products && StoredProduct(st.products[id])
    requires n > st.products[id].quantity
    ensures
      var r := UpdateProduct(st, id, UpdateBody(NoFields, Some(-n), None));
      && r.result.Ok?
      && r.result.value.quantity < 0
      && r.store.products[id] == r.result.value
      && !Valid(r.store)
    ensures UpdateProductChecked(st, id, UpdateBody(NoFields, Some(-n), None)) == Reply(Err(ServerError), st)
  {
    var r := UpdateProduct(st, id, UpdateBody(NoFields, Some(-n), None));
    assert !StoredProduct(r.store.products[id]);
  }

  /** `deleteProduct`: removes the product only; orders that reference it keep their lines. */
  function DeleteProduct(st: Store, id: Id): (r: Reply<()>)
    ensures r.store.users == st.users && r.store.orders == st.orders
    ensures r.result.Ok? <==> IsObjectId(id) && id in st.products
    ensures r.result.Ok? ==> r.store.products == st.products - {id}
    ensures r.result.Err? ==> r.store == st
    ensures r.result == Err(NotFound) <==> IsObjectId(id) && id !in st.products
  {
    if !IsObjectId(id) then Reply(Err(ServerError), st)
    else if id !in st.products then Reply(Err(NotFound), st)
    else Reply(Ok(()), st.(products := st.products - {id}))
  }

  /** The products whose category reference is `cid`. */
  function InCategory(products: map<Id, Product>, cid: Id): (r: map<Id, Product>)
    ensures forall id :: id in r <==> id in products && products[id].category == cid
    ensures forall id :: id in r ==> r[id] == products[id]
  {
    map id | id in products && products[id].category == cid :: products[id]
  }

  /** `getProductsByCategory`: exactly the products of that category, or not-found when it has none. */
  function GetProductsByCategory(st: Store, cid: Id): (r: Result<map<Id, Product>, Error>)
    ensures r.Ok? ==> IsObjectId(cid) && r.value != map[]
    ensures r.Ok? ==> forall id :: id in r.value <==> id in st.products && st.products[id].category == cid
    ensures r.Ok? ==> forall id :: id in r.value ==> r.value[id] == st.products[id]
    ensures r == Err(NotFound) <==>
      IsObjectId(cid) && forall id :: id in st.products ==> st.products[id].category != cid
    ensures r.Ok? <==> IsObjectId(cid) && exists id :: id in st.products && st.products[id].category == cid
    ensures r == Err(ServerError) <==> !IsObjectId(cid)
  {
    if !IsObjectId(cid) then Err(ServerError)
    else
      var found := InCategory(st.products, cid);
      if found == map[] then Err(NotFound) else Ok(found)
  }

  /** What a write stores is what a later read returns: a created product is found by its
      id and under its category, an updated product is found with its new fields, and a
      deleted product is no longer found. */
  lemma ProductReadAfterWrite(st: Store, f: ProductFields, newId: Id, id: Id, b: UpdateBody)
    requires IsObjectId(newId)
    ensures
      var created := CreateProduct(st, f, newId);
      created.result.Ok? ==>
        && GetProductById(created.store, newId) == Ok(created.result.value)
        && GetProductsByCategory(created.store, created.result.value.category).Ok?
        && newId in GetProductsByCategory(created.store, created.result.value.category).value
    ensures
      var updated := UpdateProduct(st, id, b);
      updated.result.Ok? ==> GetProductById(updated.store, id) == Ok(updated.result.value)
    ensures
      var checked := UpdateProductChecked(st, id, b);
      checked.result.Ok? ==> GetProductById(checked.store, id) == Ok(checked.result.value)
    ensures
      var deleted := DeleteProduct(st, id);
      deleted.result.Ok? ==> GetProductById(deleted.store, id) == Err(NotFound)
  {
    CreatedProductIsFound(st, f, newId);
  }

  lemma CreatedProductIsFound(st: Store, f: ProductFields, newId: Id)
    requires IsObjectId(newId)
    ensures
      var created := CreateProduct(st, f, newId);
      created.result.Ok? ==>
        && GetProductById(created.store, newId) == Ok(created.result.value)
        && GetProductsByCategory(created.store, created.result.value.category).Ok?
        && newId in GetProductsByCategory(created.store, created.result.value.category).value
  {
    var created := CreateProduct(st, f, newId);
    if created.result.Ok? {
      assert newId in InCategory(created.store.products, created.result.value.category);
    }
  }
}

=== FILE: schema.dfy ===
/** The Mongoose schemas of the three collections the order lifecycle touches, as records
    and as the validators that run before a document is written. */
module Schema {
  import opened Wrappers
  import opened Text
  import opened Ids
  import opened EmailPattern

  /** The five values of the order status enum. */
  datatype Status = Pendente | Processando | Enviado | Entregue | Cancelado

  /** The enum in declaration order, as the strings a request carries. */
  const AllowedStatuses: seq<string> := ["Pendente", "Processando", "Enviado", "Entregue", "Cancelado"]

  /** A new order starts in this status. */
  const DefaultStatus: Status := Pendente

  function StatusName(st: Status): (name: string)
    ensures name in AllowedStatuses
  {
    match st
    case Pendente => "Pendente"
    case Processando => "Processando"
    case Enviado => "Enviado"
    case Entregue => "Entregue"
    case Cancelado => "Cancelado"
  }

  /** Reads a requested status: defined exactly on the allowed strings, and inverse to `StatusName`. */
  function ParseStatus(s: string): (r: Option<Status>)
    ensures r.Some? <==> s in AllowedStatuses
    ensures r.Some? ==> StatusName(r.value) == s
  {
    if s == "Pendente" then Some(Pendente)
    else if s == "Processando" then Some(Processando)
    else if s == "Enviado" then Some(Enviado)
    else if s == "Entregue" then Some(Entregue)
    else if s == "Cancelado" then Some(Cancelado)
    else None
  }

  /** Every status survives the round trip through its name, so no two statuses share a name. */
  lemma StatusRoundTrip(st: Status)
    ensures ParseStatus(StatusName(st)) == Some(st)
  {
    match st
    case Pendente =>
    case Processando =>
    case Enviado =>
    case Entregue =>
    case Cancelado =>
  }

  datatype Product = Product(name: string, description: string, price: real, quantity: int, category: Id)

  /** One entry of an order's `products` array. */
  datatype Line = Line(product: Id, quantity: int)

  datatype Order = Order(user: Id, lines: seq<Line>, totalAmount: real, status: Status)

  datatype User = User(name: string, email: string)

  /** Validators of the product schema: every field required, price and quantity at least 0,
      category castable to an ObjectId. */
  predicate ProductSchemaValid(p: Product) {
    && p.name != ""
    && p.description != ""
    && p.price >= 0.0
    && p.quantity >= 0
    && IsObjectId(p.category)
  }

  predicate LineSchemaValid(l: Line) {
    IsObjectId(l.product) && l.quantity >= 1
  }

  /** Validators of the order schema; the status enum is enforced by the `Status` type. */
  predicate OrderSchemaValid(o: Order) {
    && IsObjectId(o.user)
    && (forall i :: 0 <= i < |o.lines| ==> LineSchemaValid(o.lines[i]))
    && o.totalAmount >= 0.0
  }

  /** Validators of the user schema, applied to the already trimmed fields. */
  predicate UserSchemaValid(u: User) {
    u.name != "" && u.email != "" && MatchesEmail(u.email)
  }
}

=== FILE: text.dfy ===
/** Character classes and the whitespace trimming that Mongoose's `trim: true` setter applies. */
module Text {

  /** `\w` in a JavaScript regular expression: `[A-Za-z0-9_]`. */
  predicate IsWordChar(c: char) {
    ('A' <= c <= 'Z') || ('a' <= c <= 'z') || ('0' <= c <= '9') || c == '_'
  }

  predicate IsHexDigit(c: char) {
    ('0' <= c <= '9') || ('a' <= c <= 'f') || ('A' <= c <= 'F')
  }

  /** The characters `String.prototype.trim` removes: ECMAScript WhiteSpace and LineTerminator. */
  predicate IsSpace(c: char) {
    c in SpaceChars || '\U{2000}' <= c <= '\U{200A}'
  }

  /** The whitespace characters outside the range U+2000..U+200A. */
  const SpaceChars: set<char> := {
    ' ', '\t', '\n', '\r', '\U{000B}', '\U{000C}', '\U{00A0}', '\U{1680}',
    '\U{2028}', '\U{2029}', '\U{202F}', '\U{205F}', '\U{3000}', '\U{FEFF}'
  }

  lemma WordCharIsNotSpace(c: char)
    requires IsWordChar(c)
    ensures !IsSpace(c)
  {
  }

  predicate AllSpace(s: string) {
    forall i :: 0 <= i < |s| ==> IsSpace(s[i])
  }

  /** Length of the longest all-whitespace prefix of `s`. */
  function LeadingSpaces(s: string): (n: nat)
    ensures n <= |s|
    ensures AllSpace(s[..n])
    ensures n < |s| ==> !IsSpace(s[n])
  {
    if |s| > 0 && IsSpace(s[0]) then
      var m := LeadingSpaces(s[1..]);
      SpacesGrowLeft(s, m);
      1 + m
    else 0
  }

  lemma SpacesGrowLeft(s: string, m: nat)
    requires 0 < |s| && m < |s| && IsSpace(s[0]) && AllSpace(s[1..][..m])
    ensures AllSpace(s[..m + 1])
  {
    var t := s[..m + 1];
    forall k | 0 < k < |t|
      ensures IsSpace(t[k])
    {
      assert t[k] == s[1..][..m][k - 1];
    }
  }

  /** Length of the longest all-whitespace suffix of `s`. */
  function TrailingSpaces(s: string): (n: nat)
    ensures n <= |s|
    ensures AllSpace(s[|s| - n..])
    ensures n < |s| ==> !IsSpace(s[|s| - 1 - n])
  {
    if |s| > 0 && IsSpace(s[|s| - 1]) then
      var m := TrailingSpaces(s[..|s| - 1]);
      SpacesGrowRight(s, m);
      1 + m
    else 0
  }

  lemma SpacesGrowRight(s: string, m: nat)
    requires 0 < |s| && m < |s| && IsSpace(s[|s| - 1]) && AllSpace(s[..|s| - 1][|s| - 1 - m..])
    ensures AllSpace(s[|s| - 1 - m..])
    ensures m + 1 < |s| ==> s[..|s| - 1][|s| - 2 - m] == s[|s| - 2 - m]
  {
    var t := s[|s| - 1 - m..];
    forall k | 0 <= k < |t| - 1
      ensures IsSpace(t[k])
    {
      assert t[k] == s[..|s| - 1][|s| - 1 - m..][k];
    }
  }

  /** `String.prototype.trim`: `s` is whitespace, then the result, then whitespace,
      and the result neither starts nor ends with whitespace. */
  function Trim(s: string): (r: string)
    ensures |r| <= |s|
    ensures |r| > 0 ==> !IsSpace(r[0]) && !IsSpace(r[|r| - 1])
    ensures exists i :: 0 <= i <= |s| - |r| && AllSpace(s[..i]) && s[i..i + |r|] == r && AllSpace(s[i + |r|..])
    ensures r == [] <==> AllSpace(s)
  {
    Cut(s, LeadingSpaces(s))
  }

  /** What is left of `s` once the whitespace after its first `i` characters, all of them
      whitespace, is cut off. */
  function Cut(s: string, i: nat): (r: string)
    requires i <= |s| && AllSpace(s[..i]) && (i < |s| ==> !IsSpace(s[i]))
    ensures |r| <= |s|
    ensures |r| > 0 ==> !IsSpace(r[0]) && !IsSpace(r[|r| - 1])
    ensures i <= |s| - |r| && s[i..i + |r|] == r && AllSpace(s[i + |r|..])
    ensures r == [] <==> AllSpace(s)
  {
    var j := TrailingSpaces(s[i..]);
    CutFacts(s, i, j);
    s[i..][..|s| - i - j]
  }

  /** Cutting `j` characters of whitespace off the end of `s[i..]`, after `i` of it: the
      result has every property `Trim` promises. */
  lemma CutFacts(s: string, i: nat, j: nat)
    requires i + j <= |s|
    requires AllSpace(s[..i]) && (i < |s| ==> !IsSpace(s[i]))
    requires AllSpace(s[i..][|s| - i - j..])
    requires j < |s| - i ==> !IsSpace(s[i..][|s| - i - 1 - j])
    ensures
      var r := s[i..][..|s| - i - j];
      && |r| <= |s|
      && (|r| > 0 ==> !IsSpace(r[0]) && !IsSpace(r[|r| - 1]))
      && s[i..i + |r|] == r && AllSpace(s[i + |r|..])
      && (r == [] <==> AllSpace(s))
  {
    var n := |s| - i - j;
    CutEdges(s, i, j);
    SliceOfSlice(s, i, n);
    assert AllSpace(s[i + n..]);
    CutEmpty(s, i, j);
  }

  lemma CutEdges(s: string, i: nat, j: nat)
    requires i + j <= |s|
    requires i < |s| ==> !IsSpace(s[i])
    requires j < |s| - i ==> !IsSpace(s[i..][|s| - i - 1 - j])
    ensures
      var r := s[i..][..|s| - i - j];
      |r| > 0 ==> !IsSpace(r[0]) && !IsSpace(r[|r| - 1])
  {
    var n := |s| - i - j;
    var r := s[i..][..n];
    if n > 0 {
      assert r[0] == s[i];
      assert r[n - 1] == s[i..][|s| - i - 1 - j];
    }
  }

  lemma CutEmpty(s: string, i: nat, j: nat)
    requires i + j <= |s|
    requires AllSpace(s[..i]) && (i < |s| ==> !IsSpace(s[i]))
    requires AllSpace(s[i..][|s| - i - j..])
    ensures i + j == |s| <==> AllSpace(s)
  {
    if i + j == |s| && i < |s| {
      assert false;
    }
    if AllSpace(s) && i < |s| {
      assert false;
    }
    if i == |s| {
      assert s[..i] == s;
    }
  }

  /** Slicing a suffix again is slicing the original once. */
  lemma SliceOfSlice(s: string, i: nat, n: nat)
    requires i + n <= |s|
    ensures s[i..][..n] == s[i..i + n]
    ensures s[i..][n..] == s[i + n..]
  {
  }

  /** Trimming twice is trimming once: the stored name or email is a fixed point. */
  lemma TrimIdempotent(s: string)
    ensures Trim(Trim(s)) == Trim(s)
  {
    var r := Trim(s);
    if |r| > 0 {
      assert LeadingSpaces(r) == 0;
      assert TrailingSpaces(r) == 0;
      assert r[0..] == r;
    }
  }

  lemma {:induction false} LeadingSpacesOfPadded(pad: string, s: string)
    requires AllSpace(pad)
    requires s == [] || !IsSpace(s[0])
    ensures LeadingSpaces(pad + s) == |pad|
  {
    if pad != [] {
      assert (pad + s)[1..] == pad[1..] + s;
      LeadingSpacesOfPadded(pad[1..], s);
    } else {
      assert pad + s == s;
    }
  }

  lemma {:induction false} TrailingSpacesOfPadded(s: string, pad: string)
    requires AllSpace(pad)
    requires s == [] || !IsSpace(s[|s| - 1])
    ensures TrailingSpaces(s + pad) == |pad|
  {
    if pad != [] {
      var t := s + pad;
      assert t[..|t| - 1] == s + pad[..|pad| - 1];
      TrailingSpacesOfPadded(s, pad[..|pad| - 1]);
    } else {
      assert s + pad == s;
    }
  }

  /** Trimming removes exactly the leading, then the trailing whitespace. */
  lemma TrimUnfold(s: string, i: nat, j: nat)
    requires i == LeadingSpaces(s) && j == TrailingSpaces(s[i..])
    ensures Trim(s) == s[i..][..|s| - i - j]
  {
  }

  lemma PaddedTrimNonEmpty(pre: string, s: string, post: string)
    requires AllSpace(pre) && AllSpace(post)
    requires s != [] && !IsSpace(s[0]) && !IsSpace(s[|s| - 1])
    ensures Trim(pre + s + post) == s
  {
    var rest := s + post;
    var t := pre + rest;
    assert pre + s + post == t;
    assert rest[0] == s[0];
    LeadingSpacesOfPadded(pre, rest);
    assert t[|pre|..] == rest;
    TrailingSpacesOfPadded(s, post);
    TrimUnfold(t, |pre|, |post|);
    assert rest[..|rest| - |post|] == s;
  }

  lemma PaddedTrimEmpty(pre: string, post: string)
    requires AllSpace(pre) && AllSpace(post)
    ensures Trim(pre + [] + post) == []
  {
    assert pre + [] + post == pre + post;
    assert AllSpace(pre + post);
  }

  /** Whitespace added before and after a string that neither starts nor ends with whitespace
      is exactly what trimming removes. */
  lemma PaddedTrim(pre: string, s: string, post: string)
    requires AllSpace(pre) && AllSpace(post)
    requires s == [] || (!IsSpace(s[0]) && !IsSpace(s[|s| - 1]))
    ensures Trim(pre + s + post) == s
  {
    if s == [] {
      PaddedTrimEmpty(pre, post);
    } else {
      PaddedTrimNonEmpty(pre, s, post);
    }
  }
}

=== FILE: users.dfy ===
/** Users as the order handlers see them: documents the user schema admitted, and ids that
    may disappear. */
module Users {
  import opened Wrappers
  import opened Text
  import opened Ids
  import opened Schema
  import opened EmailPattern
  import opened Collections

  predicate EmailTaken(users: map<Id, User>, email: string) {
    exists id :: id in users && users[id].email == email
  }

  /** `User.create`: both fields go through the trim setter, then the required and pattern
      validators run on the trimmed values; the unique index refuses an email already stored. */
  function InsertUser(st: Store, newId: Id, name: Option<string>, email: Option<string>): (r: Reply<User>)
    ensures r.store.products == st.products && r.store.orders == st.orders
    ensures r.result.Err? ==> r.store == st
    ensures r.result.Ok? ==>
      && name.Some? && email.Some?
      && r.result.value == User(Trim(name.value), Trim(email.value))
      && StoredUser(r.result.value)
      && newId !in st.users
      && !EmailTaken(st.users, r.result.value.email)
      && r.store.users == st.users[newId := r.result.value]
    ensures UniqueEmails(st.users) ==> UniqueEmails(r.store.users)
    ensures
      && name.Some? && email.Some? && Trim(name.value) != "" && MatchesEmail(Trim(email.value))
      && newId !in st.users && !EmailTaken(st.users, Trim(email.value))
      ==> r.result.Ok?
  {
    if name.None? || email.None? then Reply(Err(SchemaViolation), st)
    else
      var user := User(Trim(name.value), Trim(email.value));
      if !UserSchemaValid(user) then Reply(Err(SchemaViolation), st)
      else if newId in st.users || EmailTaken(st.users, user.email) then Reply(Err(ServerError), st)
      else
        TrimIdempotent(name.value);
        TrimIdempotent(email.value);
        assert UniqueEmails(st.users) ==> UniqueEmails(st.users[newId := user]) by {
          if UniqueEmails(st.users) {
            InsertKeepsUnique(st.users, newId, user);
          }
        }
        Reply(Ok(user), st.(users := st.users[newId := user]))
  }

  /** `User.create` keeps every stored user trimmed and valid, and every email unique. */
  lemma InsertUserKeepsUsersStored(st: Store, newId: Id, name: Option<string>, email: Option<string>)
    requires forall id :: id in st.users ==> StoredUser(st.users[id])
    requires UniqueEmails(st.users)
    ensures
      var users := InsertUser(st, newId, name, email).store.users;
      (forall id :: id in users ==> StoredUser(users[id])) && UniqueEmails(users)
  {
    var r := InsertUser(st, newId, name, email);
    if r.result.Ok? {
      var user := r.result.value;
      assert StoredUser(user);
      assert r.store.users == st.users[newId := user];
    }
  }

  lemma InsertKeepsUnique(users: map<Id, User>, id: Id, u: User)
    requires UniqueEmails(users) && id !in users && !EmailTaken(users, u.email)
    ensures UniqueEmails(users[id := u])
  {
    var m := users[id := u];
    forall a, b | a in m && b in m && a != b
      ensures m[a].email != m[b].email
    {
      if a == id {
        assert users[b].email != u.email;
      } else if b == id {
        assert users[a].email != u.email;
      }
    }
  }

  /** `deleteUser`: removes the user and nothing else; that user's orders stay. */
  function DeleteUser(st: Store, id: Id): (r: Reply<()>)
    ensures r.store.products == st.products && r.store.orders == st.orders
    ensures r.result.Ok? <==> IsObjectId(id) && id in st.users
    ensures r.result.Ok? ==> r.store.users == st.users - {id}
    ensures r.result.Err? ==> r.store == st
  {
    if !IsObjectId(id) then Reply(Err(ServerError), st)
    else if id !in st.users then Reply(Err(NotFound), st)
    else Reply(Ok(()), st.(users := st.users - {id}))
  }

  /** Surrounding whitespace never makes an email invalid: it is removed before the pattern
      is tried, and it is not stored. */
  lemma PaddedEmailAccepted(st: Store, newId: Id, name: string, email: string, pre: string, post: string)
    requires AllSpace(pre) && AllSpace(post)
    requires Trim(name) != "" && MatchesEmail(email)
    requires newId !in st.users && !EmailTaken(st.users, email)
    ensures
      var r := InsertUser(st, newId, Some(name), Some(pre + email + post));
      r.result.Ok? && r.result.value.email == email
  {
    AcceptedEmailHasNoSpaceAtEnds(email);
    PaddedTrim(pre, email, post);
  }

  /** An accepted email starts with a word character and ends with its top-level domain. */
  lemma AcceptedEmailHasNoSpaceAtEnds(email: string)
    requires MatchesEmail(email)
    ensures email != [] && !IsSpace(email[0]) && !IsSpace(email[|email| - 1])
  {
    MatchesIffWellShaped(email);
    var a :| 0 <= a < |email| && ShapedAround(email, a);
    ShapedEnds(email, a);
    WordCharIsNotSpace(email[0]);
    WordCharIsNotSpace(email[|email| - 1]);
  }
}

=== FILE: wrappers.dfy ===
/** Optional values: `None` stands for a JSON field that is absent, `undefined` or `null`. */
module Wrappers {

  datatype Option<+T> = None | Some(value: T)

  /** The outcome of a lookup or a controller: a value, or the error the handler answers with. */
  datatype Result<+T, +E> = Ok(value: T) | Err(error: E)
}
